=== FILE: README.md ===
# Decompile and Attach: the jar-to-sources-jar traversal

This Dafny project models the core of the IntelliJ plugin "Decompile and Attach". The plugin
walks the tree of a binary jar and sends every top-level class file to a decompiler. It writes
one directory entry per non-empty directory and one `.java` entry per decompiled class into a
new archive, and names that archive after the jar with `.jar` replaced by `-sources.jar`.

Two versions of the traversal are modelled over the same tree datatype:

- `Traversal` is the current action (package `io.gulp.intellij.plugin.decompile`). It keeps one
  written-path set for the whole run, so no path is written twice. It catches the decompiler's
  `CannotDecompileException` and records the class's name as failed.
- `LegacyTraversal` is the older action (package `io.gulp.intellij`). It has no written-path set
  and no catch. It reassigns `relativePath` inside `process`, so a directory's path leaks into the
  siblings that follow it.

`TmpFileBridge` models `DecompilerImpl.decompileCreatingTmpFile`. This is the bridge that copies a
class out of the jar into the temp directory for decompilers that need a real file.

Layout:

- `results.dfy`: `Option` and `Result`.
- `names.dfy` (`FileNames`): Java's `indexOf`, `lastIndexOf` and `String.replace`, and IntelliJ's
  `getExtension` and `getNameWithoutExtension` (split at the last `.`). It also holds the class
  filter, the `.class` to `.java` rename and the `-sources.jar` name.
- `vfs.dfy` (`Vfs`): the virtual-file tree. `getChildren` of a file is empty.
- `zip.dfy` (`Zip`): entries as `ZipOutputStream` receives them. Covers the method (stored 0,
  deflated 8, as in section 4.4.5 of PKWARE's APPNOTE.TXT), the declared size and crc, and
  `putNextEntry`'s refusal of a duplicate name.
- `units.dfy` (`Units`): the backend as an arbitrary function from a class node to
  `Text(text) | CannotDecompile`. Also the traversal's steps (a directory entry, or a class to
  decompile), the entries a plan produces, and `KeepFirst`, the reference de-duplication.
- `writer.dfy` (`ArchiveWriter`): the current writer state `(entries, written, failed)`,
  `addDirectoryEntry`, `addFileEntry` and `decompileAndSave`, plus `Replay`, which runs a whole
  plan.
- `traversal.dfy` (`Traversal`): the pre-order plan, the faithful head/tail `process`, `apply`,
  and the properties of the current version.
- `legacy.dfy` (`LegacyTraversal`): the same for the older version.
- `comparison.dfy` (`VersionComparison`): where the two versions agree, and concrete jars on which
  they differ.
- `bridge.dfy` (`TmpFileBridge`): the temp-file path and the create/copy/decompile/delete
  sequence.

Each traversal is defined twice. The first definition is the source's head/tail recursion
(`Process`, `LegacyProcess`). The second is an independent reference: a plan computed by plain
structural recursion (`PreOrder`, `LegacyPreOrder`), run by a fold (`Replay`, `LegacyReplay`). The
recursion's contract says it equals the fold of the plan. The fold's contract states what gets
written in terms of the plan alone:

- current version: the first entry of every path, plus the names of the rejected classes;
- older version: everything, unless a class is rejected or a name repeats.

## Behaviour worth knowing

- A directory with no children goes through the leaf branch of `process`. An empty directory whose
  name ends in `.class` is therefore sent to the decompiler (`Traversal.EmptyDirectoryHasNoEntry`).
- Every non-empty directory gets its own entry. A jar holding an empty `META-INF/` and
  `com/acme/Foo.class` gets the entries `com/`, `com/acme/` and `com/acme/Foo.java`.
- When an `IOException` happens during the bridge's directory creation or copy, the bridge logs it
  and returns the exception's message as the decompiled text.

## Model

| member | source | states |
|---|---|---|
| Traversal.Apply | src/io/gulp/intellij/plugin/decompile/DecompileAndAttachAction.java:219-232 | an empty jar fails with "jar file is empty" and nothing else does; a run returns the root's name, pairwise distinct entries equal to the first occurrence of every path in the pre-order plan, and exactly the failed names of that plan |
| Traversal.Process | src/io/gulp/intellij/plugin/decompile/DecompileAndAttachAction.java:234-253 | the head/tail recursion keeps the writer state valid and equals replaying the pre-order plan of the head followed by the plan of the tail under the parent's prefix |
| Traversal.ProcessDirectory | src/io/gulp/intellij/plugin/decompile/DecompileAndAttachAction.java:240-244 | a non-empty directory writes `prefix + name + "/"` first, then processes its children with that path as their prefix |
| Traversal.DirectoryPrecedesDescendants | src/io/gulp/intellij/plugin/decompile/DecompileAndAttachAction.java:240-244 | a directory's entry is its first step, and every later step of its subtree lies strictly under its path |
| Traversal.NodeStepsUnderPrefix | src/io/gulp/intellij/plugin/decompile/DecompileAndAttachAction.java:241-247 | every path planned for a node starts with the prefix it was given |
| Traversal.SiblingStepsUnderPrefix | src/io/gulp/intellij/plugin/decompile/DecompileAndAttachAction.java:250-251 | every path planned for a run of siblings starts with the parent's prefix |
| Traversal.SiblingsShareParentPrefix | src/io/gulp/intellij/plugin/decompile/DecompileAndAttachAction.java:241-251 | siblings keep the parent's prefix: the plan of a run is the plan of the siblings before any one of them, then that sibling's own plan under the parent's prefix, then the plan of those after it; so every non-empty directory among them gets the entry `prefix + name + "/"` |
| Traversal.SiblingStepsAppend | src/io/gulp/intellij/plugin/decompile/DecompileAndAttachAction.java:250-251 | the plan of a run of siblings is the plan of any split of the run, part after part |
| Traversal.NodeStepsShape | src/io/gulp/intellij/plugin/decompile/DecompileAndAttachAction.java:240-248 | every planned path is longer than its prefix; directory paths end in `/`; class paths end in `.java` and belong to a class unit |
| Traversal.SiblingStepsShape | src/io/gulp/intellij/plugin/decompile/DecompileAndAttachAction.java:250-251 | the same shape holds for the plan of a run of siblings |
| Traversal.EmptyDirectoryHasNoEntry | src/io/gulp/intellij/plugin/decompile/DecompileAndAttachAction.java:240-248 | a directory without children gets no directory entry and no recursion; it contributes a step only when its name passes the class filter |
| Traversal.NestedClassSkipped | src/io/gulp/intellij/plugin/decompile/DecompileAndAttachAction.java:246 | a leaf whose name contains `$` produces nothing |
| Traversal.FailureContained | src/io/gulp/intellij/plugin/decompile/DecompileAndAttachAction.java:255-263 | whatever the backend rejects, a run over a non-empty jar completes, with at most one entry per planned step |
| Traversal.ProducedAtMostPlan | src/io/gulp/intellij/plugin/decompile/DecompileAndAttachAction.java:257-262 | each step produces at most one entry |
| Traversal.FailedNamesExact | src/io/gulp/intellij/plugin/decompile/DecompileAndAttachAction.java:216 | a name is in the failed set if and only if some planned class unit of that name is rejected by the backend |
| ArchiveWriter.Fresh | src/io/gulp/intellij/plugin/decompile/DecompileAndAttachAction.java:216-223 | a run starts with no entries, no written paths and no failures, which is a valid state |
| ArchiveWriter.AddDirectoryEntry | src/io/gulp/intellij/plugin/decompile/DecompileAndAttachAction.java:272-283 | an already written path changes nothing; otherwise exactly one stored directory entry is appended and exactly its path is recorded; the written set stays equal to the entries' names, which stay distinct |
| ArchiveWriter.AddFileEntry | src/io/gulp/intellij/plugin/decompile/DecompileAndAttachAction.java:285-305 | an already written path changes nothing; otherwise exactly one file entry with the text is appended and its path is recorded |
| ArchiveWriter.DecompileAndSave | src/io/gulp/intellij/plugin/decompile/DecompileAndAttachAction.java:255-263 | a rejected class adds its name, not its path, to the failed set and writes nothing; an accepted one appends `FileEntry(path, text)` when the path is new and nothing when it is already written, records the path and leaves the failed set alone |
| ArchiveWriter.Perform | src/io/gulp/intellij/plugin/decompile/DecompileAndAttachAction.java:242-247 | one step appends the first-occurrence filtering of its entries against the written set, and adds the names it fails |
| ArchiveWriter.Replay | src/io/gulp/intellij/plugin/decompile/DecompileAndAttachAction.java:223 | with one written set shared by the whole plan, the entries added are the first occurrence of each path not yet written, and the failures added are the plan's failed names |
| ArchiveWriter.ReplayAppend | src/io/gulp/intellij/plugin/decompile/DecompileAndAttachAction.java:250-251 | replaying two plans one after the other is replaying their concatenation |
| Units.LeafSteps | src/io/gulp/intellij/plugin/decompile/DecompileAndAttachAction.java:246-247 | a leaf yields a step if and only if its name has no `$` and extension `class`, and then its path is `prefix + nameWithoutExtension + ".java"` |
| Units.KeepFirst | src/io/gulp/intellij/plugin/decompile/DecompileAndAttachAction.java:274-275 | the reference de-duplication: its result is a subsequence of the input, in input order and with entries unchanged, made only of the first entry of each path not already seen; its names are exactly the input's names minus the seen ones, each once |
| Units.KeepFirstAppend | src/io/gulp/intellij/plugin/decompile/DecompileAndAttachAction.java:287-288 | filtering a concatenation filters the second part against everything the first part named |
| Units.ProducedAppend | src/io/gulp/intellij/plugin/decompile/DecompileAndAttachAction.java:250-251 | entries and failed names of a concatenated plan are those of the parts |
| Units.ProducedAllDecompile | src/io/gulp/intellij/plugin/decompile/DecompileAndAttachAction.java:257-262 | with no rejected class every step produces one entry and no name fails; an empty failed set means no class was rejected |
| Units.ProducedWellDeclared | src/io/gulp/intellij/plugin/decompile/DecompileAndAttachAction.java:277-297 | every produced entry is stored exactly when its content is empty, and then declares size 0 and crc 0; otherwise size and crc are left to the stream |
| Zip.DirectoryEntry | src/io/gulp/intellij/plugin/decompile/DecompileAndAttachAction.java:277-280 | a directory entry carries its path, is stored, has no content and declares size 0 and crc 0, so it is exactly the entry an empty source file gets |
| Zip.FileEntry | src/io/gulp/intellij/plugin/decompile/DecompileAndAttachAction.java:291-297 | a source entry is stored with size 0 and crc 0 exactly when the text is empty, and uses the default method otherwise |
| Zip.PutNextEntry | src/io/gulp/intellij/DecompileAndAttachAction.java:171 | the stream refuses a name it has already written with a duplicate-entry error, and otherwise appends the entry |
| Zip.NamesAppend | src/io/gulp/intellij/plugin/decompile/DecompileAndAttachAction.java:274-275 | the names of a concatenation are the union of the names |
| Zip.DistinctAppend | src/io/gulp/intellij/plugin/decompile/DecompileAndAttachAction.java:287-288 | a concatenation has distinct names if and only if both parts do and share no name |
| FileNames.IndexOf | src/io/gulp/intellij/plugin/decompile/bridge/DecompilerImpl.java:29 | the first position of the character, or -1 when it does not occur |
| FileNames.LastIndexOf | src/io/gulp/intellij/plugin/decompile/DecompileAndAttachAction.java:246-247 | the last position of the character, or -1 when it does not occur |
| FileNames.Extension | src/io/gulp/intellij/plugin/decompile/DecompileAndAttachAction.java:246 | a name has an extension if and only if it contains a `.`, and then the extension is a strictly shorter suffix of the name |
| FileNames.NameWithoutExtension | src/io/gulp/intellij/plugin/decompile/DecompileAndAttachAction.java:247 | the stem is a prefix of the name; it is the whole name if and only if there is no `.`, and otherwise a `.` follows it |
| FileNames.ExtensionSplit | src/io/gulp/intellij/plugin/decompile/DecompileAndAttachAction.java:246-247 | a name without `.` has no extension and is its own stem; otherwise the name is stem, `.`, extension, and the extension holds no `.` |
| FileNames.ClassExtensionIffSuffix | src/io/gulp/intellij/plugin/decompile/DecompileAndAttachAction.java:246 | the extension is exactly `class` if and only if the name ends in `.class` |
| FileNames.IsClassUnit | src/io/gulp/intellij/plugin/decompile/DecompileAndAttachAction.java:246 | a leaf is sent to the decompiler if and only if its name has no `$` and ends in `.class` |
| FileNames.SourceFileName | src/io/gulp/intellij/plugin/decompile/DecompileAndAttachAction.java:247 | the entry name of a class ends in `.java`, and for a `.class` file it is one character shorter than the class file's name |
| FileNames.SourceFileNameSwapsSuffix | src/io/gulp/intellij/plugin/decompile/DecompileAndAttachAction.java:247 | for a `.class` file, putting `.class` back in place of the `.java` suffix gives the class file's name |
| FileNames.StemOfClassFile | src/io/gulp/intellij/DecompileAndAttachAction.java:123-124 | `stem.class` has extension `class` and its name without extension is `stem` |
| FileNames.ClassUnitOf | src/io/gulp/intellij/DecompileAndAttachAction.java:123-124 | `stem.class` is a class unit if and only if the stem has no `$`, and its source name is `stem.java` |
| FileNames.Replace | src/io/gulp/intellij/plugin/decompile/DecompileAndAttachAction.java:149 | replacing a target by itself changes nothing, and a replacement of the target's length keeps the length |
| FileNames.ReplaceSplit | src/io/gulp/intellij/plugin/decompile/DecompileAndAttachAction.java:149 | replacement goes occurrence by occurrence: when the first occurrence of the target starts right after `a`, the result is `a`, the replacement, and the replacement applied to what follows, so every later occurrence is replaced too |
| FileNames.ReplaceGrows | src/io/gulp/intellij/plugin/decompile/DecompileAndAttachAction.java:149 | replacing with a longer string never shortens, and lengthens whenever the target occurs |
| FileNames.ReplaceAbsent | src/io/gulp/intellij/plugin/decompile/DecompileAndAttachAction.java:149 | replacing a target that does not occur changes nothing |
| FileNames.LibraryName | src/io/gulp/intellij/plugin/decompile/DecompileAndAttachAction.java:149 | the library name is the jar's name with every `.jar` replaced by `-sources.jar` (the older action does the same at line 76 of its own file), and it is never shorter than the jar's name |
| FileNames.LibraryNameUnchangedIff | src/io/gulp/intellij/plugin/decompile/DecompileAndAttachAction.java:149 | the library name equals the jar's name if and only if `.jar` does not occur in it |
| FileNames.LibraryNameSplit | src/io/gulp/intellij/plugin/decompile/DecompileAndAttachAction.java:149 | every `.jar` is renamed, not only the first: with no `.jar` ending before it, the first `.jar` becomes `-sources.jar` and the rest of the name is renamed in the same way |
| FileNames.LibraryNameOfJar | src/io/gulp/intellij/DecompileAndAttachAction.java:76 | a name `base.jar` with no other `.jar` becomes `base-sources.jar` |
| LegacyTraversal.Leaked | src/io/gulp/intellij/DecompileAndAttachAction.java:118 | the prefix the tail call receives extends the old prefix; it differs from it if and only if the head is a non-empty directory, and then it grows by the directory's name and `/` |
| LegacyTraversal.AddDirectoryEntry | src/io/gulp/intellij/DecompileAndAttachAction.java:165-173 | always writes a stored directory entry; a repeated name raises the stream's duplicate-entry error |
| LegacyTraversal.AddFileEntry | src/io/gulp/intellij/DecompileAndAttachAction.java:175-194 | always writes the file entry; a repeated name raises the stream's duplicate-entry error |
| LegacyTraversal.DecompileAndSave | src/io/gulp/intellij/DecompileAndAttachAction.java:132-135 | a rejected class escapes as an exception naming the class; an accepted one is written with no de-duplication: it succeeds exactly when the path is new, appending `FileEntry(path, text)`, and a repeated path raises the stream's duplicate-entry error |
| LegacyTraversal.LegacyReplay | src/io/gulp/intellij/DecompileAndAttachAction.java:119-128 | from distinct output, a plan completes if and only if no class is rejected and no name repeats, and then the output is everything the plan produces |
| LegacyTraversal.LegacyReplayAppend | src/io/gulp/intellij/DecompileAndAttachAction.java:127-128 | running two plans in turn is running their concatenation, stopping at the first exception |
| LegacyTraversal.LegacyStepFails | src/io/gulp/intellij/DecompileAndAttachAction.java:132-135 | a step that raises rules out completion of every plan that starts with it |
| LegacyTraversal.LegacyStepSucceeds | src/io/gulp/intellij/DecompileAndAttachAction.java:165-194 | a step that completes appends exactly its entries and keeps the names distinct |
| LegacyTraversal.RepeatedNameBreaksDistinct | src/io/gulp/intellij/DecompileAndAttachAction.java:171 | writing a name already written leaves an output with a repeated name |
| LegacyTraversal.LegacyProcess | src/io/gulp/intellij/DecompileAndAttachAction.java:112-130 | the older head/tail recursion equals running the plan in which each sibling receives the prefix its predecessor reassigned |
| LegacyTraversal.LegacyApply | src/io/gulp/intellij/DecompileAndAttachAction.java:101-110 | an empty root raises an index error; otherwise the run completes if and only if no class is rejected and no name repeats, and then it returns the root's name and one entry per planned step |
| VersionComparison.LeakFreeNodeAgrees | src/io/gulp/intellij/DecompileAndAttachAction.java:118 | within one node the two plans coincide when no non-empty directory is followed by a sibling |
| VersionComparison.LeakFreeSiblingsAgree | src/io/gulp/intellij/DecompileAndAttachAction.java:127-128 | the same holds for a run of siblings |
| VersionComparison.LegacyRunAgreesWithCurrent | src/io/gulp/intellij/plugin/decompile/DecompileAndAttachAction.java:240-251 | on a leak-free jar, a completed older run writes exactly what the current one writes, fails nothing, and returns the same name |
| VersionComparison.ClassRunSteps | src/io/gulp/intellij/DecompileAndAttachAction.java:116-128 | a run of top-level class files is planned alike by both versions, one decompilation per file in order, since no class file leaks a prefix |
| VersionComparison.PrefixLeakCounterexample | src/io/gulp/intellij/DecompileAndAttachAction.java:118-128 | on a jar with `META-INF/MANIFEST.MF` and `com/Foo.class`, the older plan writes `META-INF/com/` and `META-INF/com/Foo.java`, the current one `com/` and `com/Foo.java` |
| VersionComparison.ClashPlans | src/io/gulp/intellij/DecompileAndAttachAction.java:118-128 | on a jar with `a/X.class` and `X.class`, the older plan names `a/X.java` twice and the current one names `a/X.java` and `X.java` |
| VersionComparison.DuplicateAbortCounterexample | src/io/gulp/intellij/DecompileAndAttachAction.java:118-128 | with any backend that decompiles `X.class`, the older action loses the whole run on that jar with a duplicate-entry error for `a/X.java` |
| VersionComparison.ClashJarCurrentRun | src/io/gulp/intellij/plugin/decompile/DecompileAndAttachAction.java:241-251 | with any backend that decompiles `X.class`, the current action writes `a/`, `a/X.java` and `X.java` on the same jar |
| VersionComparison.OneFailureAmongThree | src/io/gulp/intellij/plugin/decompile/DecompileAndAttachAction.java:257-262 | with `A.class`, `Bar.class` and `C.class` and a backend rejecting only `Bar.class`, the current run writes `A.java` and `C.java` and reports `Bar.class`, while the older run ends with the escaped exception |
| TmpFileBridge.TmpClassFilePath | src/io/gulp/intellij/plugin/decompile/bridge/DecompilerImpl.java:28-29 | the temp path starts with the temp directory; with no `!` the whole file path is appended, otherwise a strictly shorter suffix |
| TmpFileBridge.TmpPathOfJarEntry | src/io/gulp/intellij/plugin/decompile/bridge/DecompilerImpl.java:29 | for `jarPath!inner` with no `!` in the jar path, the temp path is the temp directory followed by `inner` |
| TmpFileBridge.DefaultDecompileInternal | src/io/gulp/intellij/plugin/decompile/bridge/DecompilerImpl.java:23-25 | the base `decompileInternal` always throws |
| TmpFileBridge.Attempt | src/io/gulp/intellij/plugin/decompile/bridge/DecompilerImpl.java:32-38 | the parent directories are created first; the copy is attempted only after they were created, and the decompiler only after creation and copy both succeed, when its text or exception is the outcome; a failing creation is followed directly by the catch's log line, a failing copy by that log line right after it, and the exception's message is the returned text; the attempt never deletes |
| TmpFileBridge.Cleanup | src/io/gulp/intellij/plugin/decompile/bridge/DecompilerImpl.java:39-45 | the temp file is deleted, and a failed delete is only logged |
| TmpFileBridge.DecompileCreatingTmpFile | src/io/gulp/intellij/plugin/decompile/bridge/DecompilerImpl.java:27-47 | create, copy and decompile run in that order on the derived path; a copy is attempted only after the directories were created; a failing create or copy is logged and then the temp file is deleted, and the failure's message becomes the returned text; the delete is attempted last on every path, followed only by its own log line, which a failed delete always gets; nothing comes between the decompile call and the delete, since the trace has exactly the attempt's two or three actions plus one or two for the cleanup |
| TmpFileBridge.FailuresLoggedBeforeDelete | src/io/gulp/intellij/plugin/decompile/bridge/DecompilerImpl.java:32-41 | after appending the cleanup, a copy still appears only when the directories were created, and a failing create or copy is logged immediately before the delete |
| TmpFileBridge.ActionsOrdered | src/io/gulp/intellij/plugin/decompile/bridge/DecompilerImpl.java:39-45 | appending the cleanup to an attempt keeps the attempt's first actions, puts the delete last or followed only by its log line and nowhere else, and keeps the decompile call only where create and copy succeeded |
| TmpFileBridge.DeleteDoesNotChangeOutcome | src/io/gulp/intellij/plugin/decompile/bridge/DecompilerImpl.java:40-44 | the outcome is the same whether the delete succeeds or fails |
| TmpFileBridge.DefaultBridgeFails | src/io/gulp/intellij/plugin/decompile/bridge/DecompilerImpl.java:23-35 | with the base `decompileInternal`, the bridge propagates the exception even when create and copy succeed |

## Left out

- IntelliJ action plumbing: `update`, `actionPerformed`, the background task and
  `findOrCreateBaseDir`. This is host UI and framework wiring.
- Progress fractions: floating-point values for a UI indicator.
- Notifications, `attach`, `copyAndAttach`'s library registration, `findModuleDependency` and the
  persisted base directory. These change the host IDE's project model. Only the name rule of
  `copy` and `copyAndAttach` is modelled.
- `FolderSelectionForm.java`: a Swing dialog.
- The concrete backends (CFR, Procyon, FernFlower) and `Decompiler.java`. They become the
  arbitrary `Backend` function, and the bridge's `decompileInternal` becomes a parameter.
- Real file I/O: opening the output jar, `FileUtil.copy`, and `Files.createDirectories`, `copy`
  and `delete`. The bridge sees each only as `Done` or `IoException(message)`.
- ZIP byte layout, DEFLATE, crc computation and UTF-8 encoding. Entries carry the declared method,
  size and crc and the text itself. The stream's checks other than the duplicate name are not
  modelled; `Units.ProducedWellDeclared` shows that the stored entries never need them.
- Unchecked exceptions from the backend other than `CannotDecompileException`, and the process
  cancellation path. The backend's outcome is either text or that exception.
- `head == null` and `tail == null` in `process`: a tree node and its child sequence always exist.
- `Paths.get` normalisation and a null parent in the bridge. The parent-directory creation is one
  abstract action on the derived path.
- FileNames.Replace: requires a non-empty target. Java's `replace` with an empty target inserts
  the replacement between every character, and the only target used here is `.jar`.
- TmpFileBridge.Attempt: an `IOException` whose `getMessage()` is null makes the bridge return
  null; `IoException(message)` always carries a string, so that case is not modelled.
- The closing of the output stream (`jarOutputStream.close()`) and the copy of the temporary jar
  to its final place.

## Findings

| source | as written | input that shows it | evidently intended | confidence | as-written member | corrected member |
|---|---|---|---|---|---|---|
| src/io/gulp/intellij/DecompileAndAttachAction.java:118-128 | `relativePath += head.getName() + "/"` reassigns the parameter, and the tail call on the siblings reuses it, so every sibling after a non-empty directory is written under that directory | a jar with `META-INF/MANIFEST.MF` and `com/Foo.class` gets `META-INF/com/Foo.java`; a jar with `a/X.class` and `X.class` writes `a/X.java` twice and the stream aborts the run with a duplicate-entry error | siblings keep the parent's prefix (the current version holds the new path in a local `path`), so the entries are `com/Foo.java`, and `a/X.java` plus `X.java` | not executed | VersionComparison.DuplicateAbortCounterexample | VersionComparison.ClashJarCurrentRun |

=== FILE: bridge.dfy ===
/**
 * DecompilerImpl's temp-file bridge, used by the backends that need a real file:
 * the jar-internal part of the class file's path is re-rooted under the temp
 * directory, the bytes are copied there, the backend runs on that path, and the
 * temp file is deleted on every way out. File-system calls are given as their
 * outcomes; what the bridge does is recorded as a trace of actions.
 */
module TmpFileBridge {
  import opened FileNames

  /** The outcome of one file-system call. */
  datatype Io = Done | IoException(message: string)

  /** What `decompileInternal(absolutePath)` does: return text or throw an unchecked exception. */
  datatype Internal = Returned(text: string) | Threw(exception: string)

  /** What the bridge returns to its caller: text, or an unchecked exception passing through. */
  datatype Outcome = Text(text: string) | Propagated(exception: string)

  datatype Action =
    | CreateParentDirectories(path: string)
    | CopyBytes(target: string)
    | DecompileInternal(path: string)
    | Delete(path: string)
    | LogError(message: string)

  datatype Run = Run(outcome: Outcome, actions: seq<Action>)

  /**
   * The temp file for a class: the temp directory followed by what comes after the
   * first `!` of the class file's path (`jar.jar!/pkg/A.class` gives `tmp/pkg/A.class`);
   * with no `!`, indexOf gives -1 and the whole path is appended.
   */
  function TmpClassFilePath(tmpDir: string, filePath: string): (r: string)
    ensures tmpDir <= r
    ensures '!' !in filePath ==> r == tmpDir + filePath
    ensures '!' in filePath ==> |r| < |tmpDir| + |filePath|
  {
    tmpDir + filePath[IndexOf(filePath, '!') + 1..]
  }

  /** For a jar entry path `jarPath!inner`, the temp file is `tmpDir + inner`. */
  lemma TmpPathOfJarEntry(tmpDir: string, jarPath: string, inner: string)
    requires '!' !in jarPath
    ensures TmpClassFilePath(tmpDir, jarPath + "!" + inner) == tmpDir + inner
  {
    var p := jarPath + "!" + inner;
    assert p[|jarPath|] == '!';
    forall k | 0 <= k < |jarPath|
      ensures p[k] != '!'
    {
      assert p[k] == jarPath[k];
    }
    assert IndexOf(p, '!') == |jarPath|;
    assert p[|jarPath| + 1..] == inner;
  }

  /** The base class's `decompileInternal`: always UnsupportedOperationException. */
  function DefaultDecompileInternal(absolutePath: string): (r: Internal)
    ensures r.Threw?
  {
    Threw("UnsupportedOperationException")
  }

  /** The try block: create directories, copy, decompile; an IOException becomes the text. */
  function Attempt(tmp: string, createDirectories: Io, copy: Io, internal: string -> Internal): (r: Run)
    ensures 2 <= |r.actions| <= 3 && r.actions[0] == CreateParentDirectories(tmp)
    ensures |r.actions| == if createDirectories.IoException? then 2 else 3
    ensures createDirectories.Done? && copy.Done? ==>
              r.actions == [CreateParentDirectories(tmp), CopyBytes(tmp), DecompileInternal(tmp)]
    ensures forall i :: 0 <= i < |r.actions| ==> !r.actions[i].Delete?
    ensures forall i :: 0 <= i < |r.actions| && r.actions[i].DecompileInternal? ==>
              createDirectories.Done? && copy.Done?
    ensures forall i :: 0 <= i < |r.actions| && r.actions[i].CopyBytes? ==> createDirectories.Done?
    ensures createDirectories.Done? ==> r.actions[1] == CopyBytes(tmp)
    ensures createDirectories.IoException? ==>
              r.actions == [CreateParentDirectories(tmp), LogError(createDirectories.message)]
    ensures createDirectories.Done? && copy.IoException? ==>
              r.actions == [CreateParentDirectories(tmp), CopyBytes(tmp), LogError(copy.message)]
    ensures createDirectories.IoException? ==> r.outcome == Text(createDirectories.message)
    ensures createDirectories.Done? && copy.IoException? ==> r.outcome == Text(copy.message)
    ensures createDirectories.Done? && copy.Done? ==>
              (internal(tmp).Returned? ==> r.outcome == Text(internal(tmp).text))
              && (internal(tmp).Threw? ==> r.outcome == Propagated(internal(tmp).exception))
  {
    if createDirectories.IoException? then
      Run(Text(createDirectories.message), [CreateParentDirectories(tmp), LogError(createDirectories.message)])
    else if copy.IoException? then
      Run(Text(copy.message), [CreateParentDirectories(tmp), CopyBytes(tmp), LogError(copy.message)])
    else
      var actions := [CreateParentDirectories(tmp), CopyBytes(tmp), DecompileInternal(tmp)];
      match internal(tmp)
      case Returned(text) => Run(Text(text), actions)
      case Threw(e) => Run(Propagated(e), actions)
  }

  /** The finally block: delete the temp file; a failed delete is only logged. */
  function Cleanup(tmp: string, delete: Io): (r: seq<Action>)
    ensures 1 <= |r| <= 2 && r[0] == Delete(tmp)
    ensures delete.Done? <==> |r| == 1
    ensures delete.IoException? ==> r == [Delete(tmp), LogError(delete.message)]
  {
    if delete.IoException? then [Delete(tmp), LogError(delete.message)] else [Delete(tmp)]
  }

  /** `decompileCreatingTmpFile`. */
  function DecompileCreatingTmpFile(tmpDir: string, filePath: string, createDirectories: Io, copy: Io,
                                    internal: string -> Internal, delete: Io): (r: Run)
    ensures |r.actions| >= 3
    ensures var tmp := TmpClassFilePath(tmpDir, filePath);
            && Delete(tmp) in r.actions
            && (r.actions[|r.actions| - 1] == Delete(tmp)
                || (delete.IoException?
                    && r.actions[|r.actions| - 2..] == [Delete(tmp), LogError(delete.message)]))
    ensures var tmp := TmpClassFilePath(tmpDir, filePath);
            r.actions[0] == CreateParentDirectories(tmp)
    ensures var tmp := TmpClassFilePath(tmpDir, filePath);
            createDirectories.Done? && copy.Done? ==>
              r.actions[..3] == [CreateParentDirectories(tmp), CopyBytes(tmp), DecompileInternal(tmp)]
              && (internal(tmp).Returned? ==> r.outcome == Text(internal(tmp).text))
              && (internal(tmp).Threw? ==> r.outcome == Propagated(internal(tmp).exception))
    ensures createDirectories.IoException? ==> r.outcome == Text(createDirectories.message)
    ensures createDirectories.Done? && copy.IoException? ==> r.outcome == Text(copy.message)
    ensures forall i :: 0 <= i < |r.actions| && r.actions[i].DecompileInternal? ==>
              createDirectories.Done? && copy.Done?
    ensures forall i :: 0 <= i < |r.actions| && r.actions[i].Delete? ==> i >= |r.actions| - 2
    ensures forall i :: 0 <= i < |r.actions| && r.actions[i].CopyBytes? ==> createDirectories.Done?
    ensures var tmp := TmpClassFilePath(tmpDir, filePath);
            createDirectories.Done? ==> r.actions[1] == CopyBytes(tmp)
    ensures var tmp := TmpClassFilePath(tmpDir, filePath);
            createDirectories.IoException? ==>
              r.actions[..3] == [CreateParentDirectories(tmp), LogError(createDirectories.message), Delete(tmp)]
    ensures var tmp := TmpClassFilePath(tmpDir, filePath);
            createDirectories.Done? && copy.IoException? ==>
              |r.actions| >= 4
              && r.actions[..4] == [CreateParentDirectories(tmp), CopyBytes(tmp), LogError(copy.message), Delete(tmp)]
    ensures |r.actions| == (if createDirectories.IoException? then 2 else 3) + (if delete.Done? then 1 else 2)
    ensures delete.IoException? ==> r.actions[|r.actions| - 1] == LogError(delete.message)
  {
    var tmp := TmpClassFilePath(tmpDir, filePath);
    var attempt := Attempt(tmp, createDirectories, copy, internal);
    var all := attempt.actions + Cleanup(tmp, delete);
    ActionsOrdered(tmp, attempt.actions, delete, all, createDirectories.Done? && copy.Done?);
    FailuresLoggedBeforeDelete(tmp, createDirectories, copy, attempt.actions, delete, all);
    Run(attempt.outcome, all)
  }

  /**
   * The try block's actions followed by the finally block's: the try block's prefix
   * is kept, and the delete comes last or is followed only by its log line.
   */
  lemma ActionsOrdered(tmp: string, attempt: seq<Action>, delete: Io, all: seq<Action>, ioDone: bool)
    requires |attempt| >= 2 && attempt[0] == CreateParentDirectories(tmp)
    requires ioDone ==> attempt == [CreateParentDirectories(tmp), CopyBytes(tmp), DecompileInternal(tmp)]
    requires forall i :: 0 <= i < |attempt| ==> !attempt[i].Delete?
    requires forall i :: 0 <= i < |attempt| && attempt[i].DecompileInternal? ==> ioDone
    requires all == attempt + Cleanup(tmp, delete)
    ensures |all| >= 3
    ensures Delete(tmp) in all
            && (all[|all| - 1] == Delete(tmp)
                || (delete.IoException? && all[|all| - 2..] == [Delete(tmp), LogError(delete.message)]))
    ensures all[0] == CreateParentDirectories(tmp)
    ensures ioDone ==> all[..3] == [CreateParentDirectories(tmp), CopyBytes(tmp), DecompileInternal(tmp)]
    ensures forall i :: 0 <= i < |all| && all[i].DecompileInternal? ==> ioDone
    ensures forall i :: 0 <= i < |all| && all[i].Delete? ==> i >= |all| - 2
    ensures |all| == |attempt| + (if delete.Done? then 1 else 2)
    ensures delete.IoException? ==> all[|all| - 1] == LogError(delete.message)
  {
    var cleanup := Cleanup(tmp, delete);
    assert all[|attempt|] == Delete(tmp);
    assert all[|all| - |cleanup|..] == cleanup;
    if ioDone {
      assert all[..3] == attempt;
    }
    forall i | 0 <= i < |attempt|
      ensures all[i] == attempt[i]
    {
    }
  }

  /**
   * A copy is attempted only after the directories were created, and a failing
   * create or copy is logged by the catch block before the finally block's delete.
   */
  lemma FailuresLoggedBeforeDelete(tmp: string, createDirectories: Io, copy: Io,
                                   attempt: seq<Action>, delete: Io, all: seq<Action>)
    requires |attempt| >= 2
    requires forall i :: 0 <= i < |attempt| && attempt[i].CopyBytes? ==> createDirectories.Done?
    requires createDirectories.Done? ==> attempt[1] == CopyBytes(tmp)
    requires createDirectories.IoException? ==>
               attempt == [CreateParentDirectories(tmp), LogError(createDirectories.message)]
    requires createDirectories.Done? && copy.IoException? ==>
               attempt == [CreateParentDirectories(tmp), CopyBytes(tmp), LogError(copy.message)]
    requires all == attempt + Cleanup(tmp, delete)
    ensures forall i :: 0 <= i < |all| && all[i].CopyBytes? ==> createDirectories.Done?
    ensures createDirectories.Done? ==> all[1] == CopyBytes(tmp)
    ensures createDirectories.IoException? ==>
              all[..3] == [CreateParentDirectories(tmp), LogError(createDirectories.message), Delete(tmp)]
    ensures createDirectories.Done? && copy.IoException? ==>
              |all| >= 4
              && all[..4] == [CreateParentDirectories(tmp), CopyBytes(tmp), LogError(copy.message), Delete(tmp)]
  {
    assert all[..|attempt| + 1] == attempt + [Delete(tmp)];
    forall i | 0 <= i < |all| && all[i].CopyBytes?
      ensures createDirectories.Done?
    {
      if i >= |attempt| {
        assert all[i] == Cleanup(tmp, delete)[i - |attempt|];
      } else {
        assert all[i] == attempt[i];
      }
    }
  }

  /** The delete's outcome never changes what the bridge returns. */
  lemma DeleteDoesNotChangeOutcome(tmpDir: string, filePath: string, createDirectories: Io, copy: Io,
                                   internal: string -> Internal, delete1: Io, delete2: Io)
    ensures DecompileCreatingTmpFile(tmpDir, filePath, createDirectories, copy, internal, delete1).outcome
            == DecompileCreatingTmpFile(tmpDir, filePath, createDirectories, copy, internal, delete2).outcome
  {
  }

  /** With the base class's `decompileInternal` the bridge only ever fails, after deleting. */
  lemma DefaultBridgeFails(tmpDir: string, filePath: string, delete: Io)
    ensures var r := DecompileCreatingTmpFile(tmpDir, filePath, Done, Done, DefaultDecompileInternal, delete);
            r.outcome == Propagated("UnsupportedOperationException")
            && Delete(TmpClassFilePath(tmpDir, filePath)) in r.actions
  {
  }
}

=== FILE: comparison.dfy ===
/**
 * The older traversal against the current one. Where no non-empty directory is
 * followed by a sibling, the leaked prefix is never used and both plans coincide;
 * a jar with `META-INF/MANIFEST.MF` next to `com/Foo.class` shows the leak, and a
 * jar with `a/X.class` next to `X.class` shows it ending the older run with a
 * duplicate-entry error.
 */
module VersionComparison {
  import opened Results
  import opened Vfs
  import opened Zip
  import opened FileNames
  import opened Units
  import opened Traversal
  import opened LegacyTraversal

  /** No non-empty directory has a later sibling, at any depth of the node. */
  predicate LeakFreeNode(n: Node)
    decreases n
  {
    IsNonEmptyDirectory(n) ==> LeakFreeSiblings(n.children)
  }

  predicate LeakFreeSiblings(ns: seq<Node>)
    decreases ns
  {
    |ns| == 0
    || ((|ns| == 1 || !IsNonEmptyDirectory(ns[0])) && LeakFreeNode(ns[0]) && LeakFreeSiblings(ns[1..]))
  }

  lemma {:induction false} LeakFreeNodeAgrees(prefix: string, n: Node)
    requires LeakFreeNode(n)
    ensures LegacyNodeSteps(prefix, n) == NodeSteps(prefix, n)
    decreases n
  {
    if IsNonEmptyDirectory(n) {
      LeakFreeSiblingsAgree(prefix + n.name + "/", n.children);
    }
  }

  /** Without a leaking directory the older plan is the current plan. */
  lemma {:induction false} LeakFreeSiblingsAgree(prefix: string, ns: seq<Node>)
    requires LeakFreeSiblings(ns)
    ensures LegacySiblingSteps(prefix, ns) == SiblingSteps(prefix, ns)
    decreases ns
  {
    if |ns| > 0 {
      LeakFreeNodeAgrees(prefix, ns[0]);
      if |ns| == 1 {
        assert ns[1..] == [];
      } else {
        assert Leaked(prefix, ns[0]) == prefix;
      }
      LeakFreeSiblingsAgree(Leaked(prefix, ns[0]), ns[1..]);
    }
  }

  /**
   * Whenever the older run completes on a leak-free jar, the current run writes
   * the very same entries and reports no failed class.
   */
  lemma LegacyRunAgreesWithCurrent(root: Node, backend: Backend)
    requires |Children(root)| > 0 && LeakFreeSiblings(Children(root))
    requires LegacyApply(root, backend).Success?
    ensures Apply(root, backend).Success?
    ensures Apply(root, backend).value.entries == LegacyApply(root, backend).value.entries
    ensures Apply(root, backend).value.failed == {}
    ensures Apply(root, backend).value.libraryName == LegacyApply(root, backend).value.fileName
  {
    LeakFreeSiblingsAgree("", Children(root));
    assert LegacyPreOrder(root) == PreOrder(root);
    var plan := PreOrder(root);
    ProducedAllDecompile(plan, backend);
    assert Names(Produced(plan, backend)) !! {};
  }

  const ManifestDir := Directory("META-INF", [File("MANIFEST.MF", [])])
  const FooClass := File("Foo.class", [])
  const ComDir := Directory("com", [FooClass])
  const LeakyJar := Directory("lib.jar", [ManifestDir, ComDir])

  lemma ManifestIsNoClass()
    ensures !IsClassUnit("MANIFEST.MF")
  {
    ClassExtensionIffSuffix("MANIFEST.MF");
    assert "MANIFEST.MF"[5..] != ".class";
  }

  lemma FooIsClass()
    ensures IsClassUnit("Foo.class") && SourceFileName("Foo.class") == "Foo.java"
  {
    ClassUnitOf("Foo");
    assert "Foo" + ".class" == "Foo.class";
    assert "Foo" + ".java" == "Foo.java";
  }

  lemma ComDirSteps()
    ensures NodeSteps("", ComDir) == [MkDir("com/"), Decompile("com/Foo.java", FooClass)]
    ensures LegacyNodeSteps("META-INF/", ComDir)
            == [MkDir("META-INF/com/"), Decompile("META-INF/com/Foo.java", FooClass)]
  {
    FooIsClass();
    assert "com/" + "Foo.java" == "com/Foo.java";
    assert "META-INF/com/" + "Foo.java" == "META-INF/com/Foo.java";
    assert "META-INF/" + "com" + "/" == "META-INF/com/";
    assert "" + "com" + "/" == "com/";
    assert SiblingSteps("com/", [FooClass]) == LeafSteps("com/", FooClass) + SiblingSteps("com/", []);
    assert LegacySiblingSteps("META-INF/com/", [FooClass])
           == LeafSteps("META-INF/com/", FooClass) + LegacySiblingSteps("META-INF/com/", []);
  }

  lemma ManifestDirSteps()
    ensures NodeSteps("", ManifestDir) == [MkDir("META-INF/")]
    ensures LegacyNodeSteps("", ManifestDir) == [MkDir("META-INF/")]
    ensures Leaked("", ManifestDir) == "META-INF/"
  {
    ManifestIsNoClass();
    assert "" + "META-INF" + "/" == "META-INF/";
    var m := File("MANIFEST.MF", []);
    assert SiblingSteps("META-INF/", [m]) == LeafSteps("META-INF/", m) + SiblingSteps("META-INF/", []);
    assert LegacySiblingSteps("META-INF/", [m]) == LeafSteps("META-INF/", m) + LegacySiblingSteps("META-INF/", []);
  }

  /**
   * The older action plans `com/` under `META-INF/`, the current one at the root:
   * the directory's prefix leaks into its following sibling.
   */
  lemma PrefixLeakCounterexample()
    ensures LegacyPreOrder(LeakyJar)
            == [MkDir("META-INF/"), MkDir("META-INF/com/"), Decompile("META-INF/com/Foo.java", FooClass)]
    ensures PreOrder(LeakyJar)
            == [MkDir("META-INF/"), MkDir("com/"), Decompile("com/Foo.java", FooClass)]
  {
    ComDirSteps();
    ManifestDirSteps();
    var ns := [ManifestDir, ComDir];
    assert ns[1..] == [ComDir];
    assert SiblingSteps("", [ComDir]) == NodeSteps("", ComDir) + SiblingSteps("", []);
    assert LegacySiblingSteps("META-INF/", [ComDir])
           == LegacyNodeSteps("META-INF/", ComDir) + LegacySiblingSteps(Leaked("META-INF/", ComDir), []);
    assert SiblingSteps("", ns) == NodeSteps("", ManifestDir) + SiblingSteps("", [ComDir]);
    assert LegacySiblingSteps("", ns) == LegacyNodeSteps("", ManifestDir) + LegacySiblingSteps("META-INF/", [ComDir]);
  }

  const XClass := File("X.class", [])
  const ClashDir := Directory("a", [XClass])
  const ClashJar := Directory("clash.jar", [ClashDir, XClass])

  /** A class file alone under any prefix, in both versions. */
  lemma LoneXSteps(prefix: string)
    ensures SiblingSteps(prefix, [XClass]) == [Decompile(prefix + "X.java", XClass)]
    ensures LegacySiblingSteps(prefix, [XClass]) == SiblingSteps(prefix, [XClass])
  {
    ClassRunSteps(prefix, [XClass], ["X"]);
    assert prefix + "X" + ".java" == prefix + "X.java";
    assert ClassDecompiles(prefix, [XClass], ["X"])
           == [Decompile(prefix + "X" + ".java", XClass)] + ClassDecompiles(prefix, [], []);
  }

  /** The directory `a` writes `a/` and then its class, and leaks `a/` to what follows. */
  lemma ClashDirSteps()
    ensures NodeSteps("", ClashDir) == [MkDir("a/"), Decompile("a/X.java", XClass)]
    ensures LegacyNodeSteps("", ClashDir) == NodeSteps("", ClashDir)
    ensures Leaked("", ClashDir) == "a/"
  {
    LoneXSteps("a/");
    assert "" + "a" + "/" == "a/";
    assert "a/" + "X.java" == "a/X.java";
    assert IsNonEmptyDirectory(ClashDir) && ClashDir.children == [XClass];
    assert NodeSteps("", ClashDir) == [MkDir("a/")] + SiblingSteps("a/", [XClass]);
    assert LegacyNodeSteps("", ClashDir) == [MkDir("a/")] + LegacySiblingSteps("a/", [XClass]);
  }

  /** The plans of the clashing jar: the older one names `a/X.java` twice. */
  lemma ClashPlans()
    ensures PreOrder(ClashJar) == [MkDir("a/"), Decompile("a/X.java", XClass), Decompile("X.java", XClass)]
    ensures LegacyPreOrder(ClashJar) == [MkDir("a/"), Decompile("a/X.java", XClass), Decompile("a/X.java", XClass)]
  {
    ClashPlanCurrent();
    ClashPlanLegacy();
  }

  lemma ClashPlanCurrent()
    ensures PreOrder(ClashJar) == [MkDir("a/"), Decompile("a/X.java", XClass), Decompile("X.java", XClass)]
  {
    ClashDirSteps();
    LoneXSteps("");
    assert "" + "X.java" == "X.java";
    assert Children(ClashJar) == [ClashDir, XClass] && [ClashDir, XClass][1..] == [XClass];
    assert SiblingSteps("", [ClashDir, XClass]) == NodeSteps("", ClashDir) + SiblingSteps("", [XClass]);
  }

  lemma ClashPlanLegacy()
    ensures LegacyPreOrder(ClashJar) == [MkDir("a/"), Decompile("a/X.java", XClass), Decompile("a/X.java", XClass)]
  {
    ClashDirSteps();
    LoneXSteps("a/");
    assert "a/" + "X.java" == "a/X.java";
    assert Children(ClashJar) == [ClashDir, XClass] && [ClashDir, XClass][1..] == [XClass];
    assert LegacySiblingSteps("", [ClashDir, XClass])
           == LegacyNodeSteps("", ClashDir) + LegacySiblingSteps(Leaked("", ClashDir), [XClass]);
  }

  /** Replaying the older plan of the clashing jar stops at its third step. */
  lemma ClashLegacyReplay(text: string, backend: Backend)
    requires backend(XClass) == Text(text)
    ensures LegacyReplay([], [MkDir("a/"), Decompile("a/X.java", XClass), Decompile("a/X.java", XClass)], backend)
            == Failure(ZipFailure(DuplicateEntry("a/X.java")))
  {
    var legacy := [MkDir("a/"), Decompile("a/X.java", XClass), Decompile("a/X.java", XClass)];
    var out1 := [DirectoryEntry("a/")];
    var out2 := out1 + [FileEntry("a/X.java", text)];
    var empty: seq<Entry> := [];
    assert "a/" !in Names(empty);
    assert empty + [DirectoryEntry("a/")] == out1;
    assert Perform(empty, legacy[0], backend) == Success(out1);
    assert LegacyReplay(empty, legacy, backend) == LegacyReplay(out1, legacy[1..], backend);
    assert Names(out1) == {"a/"};
    assert Perform(out1, legacy[1..][0], backend) == Success(out2);
    assert LegacyReplay(out1, legacy[1..], backend) == LegacyReplay(out2, legacy[1..][1..], backend);
    assert FileEntry("a/X.java", text) in out2;
    assert "a/X.java" in Names(out2);
  }

  /**
   * The older action writes `a/X.java` twice, so the stream raises a duplicate-entry
   * error and the whole run is lost, whatever text the class decompiles to.
   */
  lemma DuplicateAbortCounterexample(text: string, backend: Backend)
    requires backend(XClass) == Text(text)
    ensures LegacyApply(ClashJar, backend) == Failure(ZipFailure(DuplicateEntry("a/X.java")))
  {
    ClashPlans();
    ClashLegacyReplay(text, backend);
    assert LegacyNodeSteps("", ClashJar.children[0])
           + LegacySiblingSteps(Leaked("", ClashJar.children[0]), ClashJar.children[1..]) == LegacyPreOrder(ClashJar);
  }

  /** On the same jar the current action writes both classes, each under its own path. */
  lemma ClashJarCurrentRun(text: string, backend: Backend)
    requires backend(XClass) == Text(text)
    ensures Apply(ClashJar, backend).Success?
    ensures Apply(ClashJar, backend).value.entries
            == [DirectoryEntry("a/"), FileEntry("a/X.java", text), FileEntry("X.java", text)]
  {
    ClashPlans();
    var current := PreOrder(ClashJar);
    ProducedTriple(current, backend);
    var produced := [DirectoryEntry("a/"), FileEntry("a/X.java", text), FileEntry("X.java", text)];
    assert StepEntries(current[0], backend) == [DirectoryEntry("a/")];
    assert StepEntries(current[1], backend) == [FileEntry("a/X.java", text)];
    assert StepEntries(current[2], backend) == [FileEntry("X.java", text)];
    assert Produced(current, backend) == produced;
    assert Distinct(produced);
    assert Names(produced) !! {};
  }

  lemma ProducedTriple(steps: seq<Step>, backend: Backend)
    requires |steps| == 3
    ensures Produced(steps, backend)
            == StepEntries(steps[0], backend) + StepEntries(steps[1], backend) + StepEntries(steps[2], backend)
  {
    var t1 := steps[1..];
    var t2 := t1[1..];
    assert t1[0] == steps[1] && t2[0] == steps[2] && |t2[1..]| == 0;
    assert Produced(t2[1..], backend) == [];
    assert Produced(t2, backend) == StepEntries(t2[0], backend) + Produced(t2[1..], backend);
    assert Produced(t1, backend) == StepEntries(t1[0], backend) + Produced(t2, backend);
    assert Produced(steps, backend) == StepEntries(steps[0], backend) + Produced(t1, backend);
  }

  const AClass := File("A.class", [])
  const BarClass := File("Bar.class", [])
  const CClass := File("C.class", [])
  const ThreeClassJar := Directory("app.jar", [AClass, BarClass, CClass])

  /** A backend that rejects `Bar.class` and decompiles everything else to `text`. */
  function RejectBar(text: string): Backend
  {
    (u: Node) => if u.name == "Bar.class" then CannotDecompile else Text(text)
  }

  /** A top-level class file plans one decompilation in both versions and leaks nothing. */
  lemma ClassFileSteps(prefix: string, n: Node, stem: string)
    requires n.File? && n.name == stem + ".class" && '$' !in stem
    ensures NodeSteps(prefix, n) == [Decompile(prefix + stem + ".java", n)]
    ensures LegacyNodeSteps(prefix, n) == NodeSteps(prefix, n)
    ensures Leaked(prefix, n) == prefix
  {
    ClassUnitOf(stem);
    assert prefix + SourceFileName(n.name) == prefix + stem + ".java";
  }

  /** What a run of top-level class files plans: one decompilation per file, in order. */
  function ClassDecompiles(prefix: string, ns: seq<Node>, stems: seq<string>): seq<Step>
    requires |ns| == |stems|
  {
    if |ns| == 0 then []
    else [Decompile(prefix + stems[0] + ".java", ns[0])] + ClassDecompiles(prefix, ns[1..], stems[1..])
  }

  /** A run of top-level class files is planned alike by both versions, and leaks nothing. */
  lemma {:induction false} ClassRunSteps(prefix: string, ns: seq<Node>, stems: seq<string>)
    requires |ns| == |stems|
    requires forall i :: 0 <= i < |ns| ==> ns[i].File? && ns[i].name == stems[i] + ".class" && '$' !in stems[i]
    ensures SiblingSteps(prefix, ns) == ClassDecompiles(prefix, ns, stems)
    ensures LegacySiblingSteps(prefix, ns) == SiblingSteps(prefix, ns)
  {
    if |ns| > 0 {
      ClassFileSteps(prefix, ns[0], stems[0]);
      ClassRunSteps(prefix, ns[1..], stems[1..]);
    }
  }

  lemma ThreeClassPlan()
    ensures PreOrder(ThreeClassJar)
            == [Decompile("A.java", AClass), Decompile("Bar.java", BarClass), Decompile("C.java", CClass)]
    ensures LegacyPreOrder(ThreeClassJar) == PreOrder(ThreeClassJar)
  {
    ClassRunSteps("", [AClass, BarClass, CClass], ["A", "Bar", "C"]);
    ThreeClassDecompiles();
  }

  lemma ThreeClassDecompiles()
    ensures ClassDecompiles("", [AClass, BarClass, CClass], ["A", "Bar", "C"])
            == [Decompile("A.java", AClass), Decompile("Bar.java", BarClass), Decompile("C.java", CClass)]
  {
    var ns := [AClass, BarClass, CClass];
    var stems := ["A", "Bar", "C"];
    assert ns[1..] == [BarClass, CClass] && ns[1..][1..] == [CClass] && ns[1..][1..][1..] == [];
    assert stems[1..] == ["Bar", "C"] && stems[1..][1..] == ["C"] && stems[1..][1..][1..] == [];
    assert "" + "A" + ".java" == "A.java" && "" + "Bar" + ".java" == "Bar.java" && "" + "C" + ".java" == "C.java";
    assert ClassDecompiles("", [CClass], ["C"]) == [Decompile("C.java", CClass)] + ClassDecompiles("", [], []);
    assert ClassDecompiles("", [BarClass, CClass], ["Bar", "C"])
           == [Decompile("Bar.java", BarClass)] + ClassDecompiles("", [CClass], ["C"]);
  }

  /**
   * One rejected class among three: the current action writes the other two and
   * reports `Bar.class`; the older action loses the whole run.
   */
  lemma OneFailureAmongThree(text: string)
    ensures Apply(ThreeClassJar, RejectBar(text)).Success?
    ensures Apply(ThreeClassJar, RejectBar(text)).value.failed == {"Bar.class"}
    ensures Apply(ThreeClassJar, RejectBar(text)).value.entries == [FileEntry("A.java", text), FileEntry("C.java", text)]
    ensures LegacyApply(ThreeClassJar, RejectBar(text)) == Failure(CannotDecompileEscaped("Bar.class"))
  {
    var backend := RejectBar(text);
    ThreeClassPlan();
    var plan := PreOrder(ThreeClassJar);
    assert backend(AClass) == Text(text) && backend(BarClass) == CannotDecompile && backend(CClass) == Text(text);
    ProducedTriple(plan, backend);
    var produced := [FileEntry("A.java", text), FileEntry("C.java", text)];
    assert StepEntries(plan[0], backend) == [FileEntry("A.java", text)];
    assert StepEntries(plan[1], backend) == [];
    assert StepEntries(plan[2], backend) == [FileEntry("C.java", text)];
    assert Produced(plan, backend) == produced;
    assert Distinct(produced);
    assert Names(produced) !! {};
    var t1 := plan[1..];
    var t2 := t1[1..];
    assert FailedNames(t2[1..], backend) == {};
    assert FailedNames(t2, backend) == {};
    assert FailedNames(t1, backend) == {"Bar.class"};
    assert FailedNames(plan, backend) == {"Bar.class"};
    assert !AllDecompile(plan, backend) by {
      assert plan[1].Decompile? && backend(plan[1].unit).CannotDecompile?;
    }
    var empty: seq<Entry> := [];
    var out1 := [FileEntry("A.java", text)];
    assert "A.java" !in Names(empty);
    assert empty + [FileEntry("A.java", text)] == out1;
    assert Perform(empty, plan[0], backend) == Success(out1);
    assert LegacyReplay(empty, plan, backend) == LegacyReplay(out1, t1, backend);
    assert Perform(out1, t1[0], backend) == Failure(CannotDecompileEscaped("Bar.class"));
    assert LegacyNodeSteps("", ThreeClassJar.children[0])
           + LegacySiblingSteps(Leaked("", ThreeClassJar.children[0]), ThreeClassJar.children[1..]) == plan;
  }
}

=== FILE: legacy.dfy ===
/**
 * The older action (package io.gulp.intellij): the same head/tail traversal, but
 * without a written-path set and without catching the decompiler's exception, and
 * with the directory's path assigned back to `relativePath`, so that it leaks into
 * the tail call on the following siblings.
 */
module LegacyTraversal {
  import opened Results
  import opened Vfs
  import opened Zip
  import opened FileNames
  import opened Units

  /**
   * What ends the older traversal early: the decompiler's exception, the stream's,
   * or the ArrayIndexOutOfBoundsException of reading the first child of an empty root.
   */
  datatype Abort = CannotDecompileEscaped(className: string) | ZipFailure(error: ZipError) | NoFirstChild

  /** The prefix the tail call receives after `n`: the reassigned `relativePath`. */
  function Leaked(prefix: string, n: Node): (r: string)
    ensures prefix <= r
    ensures r == prefix <==> !IsNonEmptyDirectory(n)
    ensures IsNonEmptyDirectory(n) ==> r[|prefix|..] == n.name + "/"
  {
    if IsNonEmptyDirectory(n) then prefix + n.name + "/" else prefix
  }

  /** The older plan for one node; identical to the current one within the node. */
  function LegacyNodeSteps(prefix: string, n: Node): seq<Step>
    decreases n
  {
    if IsNonEmptyDirectory(n) then
      var path := prefix + n.name + "/";
      [MkDir(path)] + LegacySiblingSteps(path, n.children)
    else LeafSteps(prefix, n)
  }

  /** The older plan for siblings: each sibling gets the prefix its predecessor left behind. */
  function LegacySiblingSteps(prefix: string, ns: seq<Node>): seq<Step>
    decreases ns
  {
    if |ns| == 0 then []
    else LegacyNodeSteps(prefix, ns[0]) + LegacySiblingSteps(Leaked(prefix, ns[0]), ns[1..])
  }

  function LegacyPreOrder(root: Node): seq<Step>
  {
    LegacySiblingSteps("", Children(root))
  }

  /** addDirectoryEntry without de-duplication: the stream refuses a repeated name. */
  function AddDirectoryEntry(out: seq<Entry>, path: string): (r: Result<seq<Entry>, Abort>)
    ensures r.Success? <==> path !in Names(out)
    ensures r.Success? ==> r.value == out + [DirectoryEntry(path)]
    ensures r.Failure? ==> r.error == ZipFailure(DuplicateEntry(path))
  {
    match PutNextEntry(out, DirectoryEntry(path))
    case Success(o) => Success(o)
    case Failure(e) => Failure(ZipFailure(e))
  }

  /** addFileEntry without de-duplication. */
  function AddFileEntry(out: seq<Entry>, path: string, text: string): (r: Result<seq<Entry>, Abort>)
    ensures r.Success? <==> path !in Names(out)
    ensures r.Success? ==> r.value == out + [FileEntry(path, text)]
    ensures r.Failure? ==> r.error == ZipFailure(DuplicateEntry(path))
  {
    match PutNextEntry(out, FileEntry(path, text))
    case Success(o) => Success(o)
    case Failure(e) => Failure(ZipFailure(e))
  }

  /** decompileAndSave without a catch: the decompiler's exception ends the run. */
  function DecompileAndSave(out: seq<Entry>, path: string, unit: Node, backend: Backend): (r: Result<seq<Entry>, Abort>)
    ensures backend(unit).CannotDecompile? ==> r == Failure(CannotDecompileEscaped(unit.name))
    ensures backend(unit).Text? ==> (r.Success? <==> path !in Names(out))
    ensures r.Success? ==> r.value == out + [FileEntry(path, backend(unit).text)]
    ensures backend(unit).Text? && path in Names(out) ==> r == Failure(ZipFailure(DuplicateEntry(path)))
  {
    match backend(unit)
    case Text(text) => AddFileEntry(out, path, text)
    case CannotDecompile => Failure(CannotDecompileEscaped(unit.name))
  }

  function Perform(out: seq<Entry>, s: Step, backend: Backend): Result<seq<Entry>, Abort>
  {
    match s
    case MkDir(path) => AddDirectoryEntry(out, path)
    case Decompile(path, unit) => DecompileAndSave(out, path, unit, backend)
  }

  /**
   * A plan performed in order, stopping at the first exception. It completes exactly
   * when no class is rejected and no name repeats, and then the output is everything
   * the plan produces.
   */
  function LegacyReplay(out: seq<Entry>, steps: seq<Step>, backend: Backend): (r: Result<seq<Entry>, Abort>)
    ensures Distinct(out) ==>
              (r.Success? <==> AllDecompile(steps, backend) && Distinct(out + Produced(steps, backend)))
    ensures r.Success? ==> r.value == out + Produced(steps, backend)
    ensures r.Failure? ==> !r.error.NoFirstChild?
    decreases |steps|
  {
    if |steps| == 0 then
      assert out + [] == out;
      Success(out)
    else
      var first := Perform(out, steps[0], backend);
      if first.Failure? then
        LegacyStepFails(out, steps, backend);
        first
      else
        var r := LegacyReplay(first.value, steps[1..], backend);
        LegacyStepSucceeds(out, steps[0], backend);
        AllDecompileCons(steps, backend);
        assert Produced(steps, backend) == StepEntries(steps[0], backend) + Produced(steps[1..], backend);
        assert out + Produced(steps, backend) == first.value + Produced(steps[1..], backend);
        r
  }

  /** A step raises either because the class is rejected or because its name repeats. */
  lemma StepFailureCause(out: seq<Entry>, s: Step, backend: Backend)
    requires Perform(out, s, backend).Failure?
    ensures (s.Decompile? && backend(s.unit).CannotDecompile?)
            || (|StepEntries(s, backend)| == 1 && StepEntries(s, backend)[0].path in Names(out))
  {
  }

  /** An entry whose name is already written breaks distinctness, whatever follows. */
  lemma RepeatedNameBreaksDistinct(out: seq<Entry>, e: Entry, rest: seq<Entry>)
    requires e.path in Names(out)
    ensures !Distinct(out + ([e] + rest))
  {
    var all := out + ([e] + rest);
    var x :| x in out && x.path == e.path;
    var i :| 0 <= i < |out| && out[i] == x;
    assert all[i] == x && all[|out|] == e;
  }

  /** A step that raises makes the whole plan fail its completion condition. */
  lemma LegacyStepFails(out: seq<Entry>, steps: seq<Step>, backend: Backend)
    requires |steps| > 0 && Perform(out, steps[0], backend).Failure?
    ensures !(AllDecompile(steps, backend) && Distinct(out + Produced(steps, backend)))
  {
    StepFailureCause(out, steps[0], backend);
    AllDecompileCons(steps, backend);
    var e := StepEntries(steps[0], backend);
    assert Produced(steps, backend) == e + Produced(steps[1..], backend);
    if |e| == 1 && e[0].path in Names(out) {
      assert e == [e[0]];
      RepeatedNameBreaksDistinct(out, e[0], Produced(steps[1..], backend));
    }
  }

  /** A step that completes appends its entry to the output and keeps names distinct. */
  lemma LegacyStepSucceeds(out: seq<Entry>, s: Step, backend: Backend)
    requires Perform(out, s, backend).Success?
    ensures Perform(out, s, backend).value == out + StepEntries(s, backend)
    ensures Distinct(out) ==> Distinct(Perform(out, s, backend).value)
  {
    DistinctAppend(out, StepEntries(s, backend));
  }

  lemma {:induction false} LegacyReplayAppend(out: seq<Entry>, a: seq<Step>, b: seq<Step>, backend: Backend)
    ensures LegacyReplay(out, a + b, backend)
            == (match LegacyReplay(out, a, backend)
                case Failure(e) => Failure(e)
                case Success(o) => LegacyReplay(o, b, backend))
    decreases |a|
  {
    if |a| == 0 {
      assert a + b == b;
    } else {
      assert (a + b)[0] == a[0];
      assert (a + b)[1..] == a[1..] + b;
      var first := Perform(out, a[0], backend);
      if first.Success? {
        LegacyReplayAppend(first.value, a[1..], b, backend);
      }
    }
  }

  /**
   * The older `process(relativePath, head, tail)`. For a non-empty directory
   * `relativePath` is reassigned before the recursion, and the tail call on the
   * siblings reuses the reassigned value.
   */
  function LegacyProcess(relativePath: string, head: Node, tail: seq<Node>, backend: Backend, out: seq<Entry>)
    : (r: Result<seq<Entry>, Abort>)
    ensures r == LegacyReplay(out, LegacyNodeSteps(relativePath, head)
                                   + LegacySiblingSteps(Leaked(relativePath, head), tail), backend)
    decreases Weight(head) + WeightAll(tail)
  {
    var relativePath' := Leaked(relativePath, head);
    var afterHead :=
      if IsNonEmptyDirectory(head) then
        var c := head.children;
        assert Weight(head) == 1 + WeightAll(c) == 1 + Weight(c[0]) + WeightAll(c[1..]);
        var plan := LegacyNodeSteps(relativePath, head);
        assert plan[0] == MkDir(relativePath') && plan[1..] == LegacySiblingSteps(relativePath', c);
        match AddDirectoryEntry(out, relativePath')
        case Failure(e) => Failure(e)
        case Success(o) => LegacyProcess(relativePath', c[0], c[1..], backend, o)
      else if IsClassUnit(head.name) then
        DecompileAndSave(out, relativePath + SourceFileName(head.name), head, backend)
      else Success(out);
    assert afterHead == LegacyReplay(out, LegacyNodeSteps(relativePath, head), backend);
    LegacyReplayAppend(out, LegacyNodeSteps(relativePath, head), LegacySiblingSteps(relativePath', tail), backend);
    if afterHead.Failure? then afterHead
    else if |tail| > 0 then LegacyProcess(relativePath', tail[0], tail[1..], backend, afterHead.value)
    else afterHead
  }

  /** What the older `apply` returns (the root's name) and what it wrote. */
  datatype LegacyResult = LegacyResult(fileName: string, entries: seq<Entry>)

  /**
   * The older `apply(root)`: it reads the first child without checking, so an empty
   * root raises an index error. Otherwise any rejected class or repeated name ends
   * the run, and a run that completes gives every non-empty directory and every class
   * unit of the (leaky) plan its own entry.
   */
  function LegacyApply(root: Node, backend: Backend): (r: Result<LegacyResult, Abort>)
    ensures r == Failure(NoFirstChild) <==> |Children(root)| == 0
    ensures r.Success? <==> |Children(root)| > 0 && AllDecompile(LegacyPreOrder(root), backend)
                            && Distinct(Produced(LegacyPreOrder(root), backend))
    ensures r.Success? ==> r.value.fileName == root.name
    ensures r.Success? ==> r.value.entries == Produced(LegacyPreOrder(root), backend)
    ensures r.Success? ==> |r.value.entries| == |LegacyPreOrder(root)|
  {
    var children := Children(root);
    if |children| == 0 then Failure(NoFirstChild) else
    var plan := LegacyPreOrder(root);
    assert plan == LegacyNodeSteps("", children[0]) + LegacySiblingSteps(Leaked("", children[0]), children[1..]);
    var run := LegacyProcess("", children[0], children[1..], backend, []);
    assert [] + Produced(plan, backend) == Produced(plan, backend);
    ProducedAllDecompile(plan, backend);
    match run
    case Failure(e) => Failure(e)
    case Success(out) => Success(LegacyResult(root.name, out))
  }
}

=== FILE: names.dfy ===
/**
 * The string rules the plug-in applies to names and paths: java.lang.String's
 * indexOf / lastIndexOf / replace, IntelliJ's file extension and name-without-extension,
 * the decompilable-class filter, the `.class` to `.java` rename and the
 * `.jar` to `-sources.jar` rename of the output library.
 */
module FileNames {
  import opened Results

  /** Position of the first `c` in `s`, or -1 when there is none (String.indexOf). */
  function IndexOf(s: string, c: char): (r: int)
    ensures -1 <= r < |s|
    ensures r >= 0 ==> s[r] == c
    ensures r == -1 ==> c !in s
    ensures forall k :: 0 <= k < r ==> s[k] != c
    decreases |s|
  {
    if |s| == 0 then -1
    else if s[0] == c then 0
    else
      var i := IndexOf(s[1..], c);
      if i < 0 then -1 else i + 1
  }

  /** Position of the last `c` in `s`, or -1 when there is none (String.lastIndexOf). */
  function LastIndexOf(s: string, c: char): (r: int)
    ensures -1 <= r < |s|
    ensures r >= 0 ==> s[r] == c
    ensures forall k :: r < k < |s| ==> s[k] != c
    decreases |s|
  {
    if |s| == 0 then -1
    else if s[|s| - 1] == c then |s| - 1
    else LastIndexOf(s[..|s| - 1], c)
  }

  /** VirtualFile.getExtension: what follows the last dot, or null without a dot. */
  function Extension(name: string): (r: Option<string>)
    ensures r.Some? <==> '.' in name
    ensures r.Some? ==> |r.value| < |name| && name[|name| - |r.value|..] == r.value
  {
    var i := LastIndexOf(name, '.');
    if i < 0 then None else Some(name[i + 1..])
  }

  /** VirtualFile.getNameWithoutExtension: what precedes the last dot, or the whole name. */
  function NameWithoutExtension(name: string): (r: string)
    ensures r <= name
    ensures |r| == |name| <==> '.' !in name
    ensures '.' in name ==> name[|r|] == '.'
  {
    var i := LastIndexOf(name, '.');
    if i < 0 then name else name[..i]
  }

  /** Splitting at the last dot loses nothing, and the extension holds no dot. */
  lemma ExtensionSplit(name: string)
    ensures Extension(name).None? ==> NameWithoutExtension(name) == name && '.' !in name
    ensures Extension(name).Some? ==>
              NameWithoutExtension(name) + "." + Extension(name).value == name
              && '.' !in Extension(name).value
  {
    var i := LastIndexOf(name, '.');
    if i >= 0 {
      assert name == name[..i] + "." + name[i + 1..];
      var ext := name[i + 1..];
      forall k | 0 <= k < |ext|
        ensures ext[k] != '.'
      {
        assert ext[k] == name[i + 1 + k];
      }
    }
  }

  /** The extension is exactly `class` when, and only when, the name ends in `.class`. */
  lemma ClassExtensionIffSuffix(name: string)
    ensures Extension(name) == Some("class") <==> |name| >= 6 && name[|name| - 6..] == ".class"
  {
    var i := LastIndexOf(name, '.');
    if Extension(name) == Some("class") {
      assert name[i + 1..] == "class";
      assert i == |name| - 6;
      assert name[|name| - 6..] == [name[i]] + name[i + 1..];
    }
    if |name| >= 6 && name[|name| - 6..] == ".class" {
      var j := |name| - 6;
      assert name[j] == name[|name| - 6..][0] == '.';
      forall k | j < k < |name|
        ensures name[k] != '.'
      {
        assert name[k] == name[|name| - 6..][k - j];
      }
      assert i == j;
      assert name[i + 1..] == name[|name| - 6..][1..];
    }
  }

  /**
   * The leaf filter both traversals apply: no `$` in the name (nested and anonymous
   * classes are skipped) and the extension is exactly `class`.
   */
  predicate IsClassUnit(name: string): (b: bool)
    ensures b <==> '$' !in name && |name| >= 6 && name[|name| - 6..] == ".class"
  {
    ClassExtensionIffSuffix(name);
    '$' !in name && Extension(name) == Some("class")
  }

  /** The entry name a decompiled class gets: name without extension, then `.java`. */
  function SourceFileName(name: string): (r: string)
    ensures |r| >= 5 && r[|r| - 5..] == ".java"
    ensures Extension(name) == Some("class") ==> |r| + 1 == |name|
  {
    ExtensionSplit(name);
    NameWithoutExtension(name) + ".java"
  }

  /** For a `.class` file the rename swaps the suffix and keeps everything before it. */
  lemma SourceFileNameSwapsSuffix(name: string)
    requires Extension(name) == Some("class")
    ensures var r := SourceFileName(name); r[..|r| - 5] + ".class" == name
  {
    ExtensionSplit(name);
    var stem := NameWithoutExtension(name);
    var r := SourceFileName(name);
    assert r == stem + ".java";
    assert r[..|r| - 5] == stem;
    assert stem + "." + "class" == stem + ".class";
  }

  /** A top-level class `Stem.class` is decompiled into `Stem.java`. */
  lemma ClassUnitOf(stem: string)
    ensures IsClassUnit(stem + ".class") <==> '$' !in stem
    ensures SourceFileName(stem + ".class") == stem + ".java"
  {
    var name := stem + ".class";
    assert name[|name| - 6..] == ".class";
    DollarOnlyInStem(stem, ".class");
    StemOfClassFile(stem);
  }

  /** A `$` in `stem + suffix` comes from the stem when the suffix has none. */
  lemma DollarOnlyInStem(stem: string, suffix: string)
    requires '$' !in suffix
    ensures '$' in stem + suffix <==> '$' in stem
  {
    var name := stem + suffix;
    if '$' in name {
      var k :| 0 <= k < |name| && name[k] == '$';
      assert k < |stem|;
      assert stem[k] == '$';
    }
    if '$' in stem {
      var k :| 0 <= k < |stem| && stem[k] == '$';
      assert name[k] == '$';
    }
  }

  /** Splitting `stem.class` at its last dot gives back the stem. */
  lemma StemOfClassFile(stem: string)
    ensures Extension(stem + ".class") == Some("class")
    ensures NameWithoutExtension(stem + ".class") == stem
  {
    var name := stem + ".class";
    ClassExtensionIffSuffix(name);
    assert name[|name| - 6..] == ".class";
    ExtensionSplit(name);
    var e := Extension(name).value;
    assert NameWithoutExtension(name) + "." + e == stem + ".class";
    assert |NameWithoutExtension(name)| == |stem|;
    assert NameWithoutExtension(name) == (stem + ".class")[..|stem|] == stem;
  }

  /** `target` occurs in `s` at position `i`. */
  predicate OccursAt(s: string, target: string, i: int)
  {
    0 <= i && i + |target| <= |s| && s[i..i + |target|] == target
  }

  /** `target` occurs somewhere in `s` (String.contains). */
  predicate Occurs(s: string, target: string)
  {
    exists i | 0 <= i <= |s| :: OccursAt(s, target, i)
  }

  /**
   * String.replace(CharSequence, CharSequence): every occurrence of `target`, found
   * left to right without overlap, is replaced by `replacement`.
   */
  function Replace(s: string, target: string, replacement: string): (r: string)
    requires |target| > 0
    ensures replacement == target ==> r == s
    ensures |replacement| == |target| ==> |r| == |s|
    decreases |s|
  {
    if |s| < |target| then s
    else if s[..|target|] == target then replacement + Replace(s[|target|..], target, replacement)
    else [s[0]] + Replace(s[1..], target, replacement)
  }

  /** Replacing never shortens when the replacement is at least as long as the target. */
  lemma {:induction false} ReplaceGrows(s: string, target: string, replacement: string)
    requires 0 < |target| <= |replacement|
    ensures |Replace(s, target, replacement)| >= |s|
    ensures Occurs(s, target) && |target| < |replacement| ==> |Replace(s, target, replacement)| > |s|
    decreases |s|
  {
    if |s| < |target| {
      // nothing is replaced and no occurrence fits
    } else if s[..|target|] == target {
      ReplaceGrows(s[|target|..], target, replacement);
    } else {
      ReplaceGrows(s[1..], target, replacement);
      if Occurs(s, target) {
        var i :| 0 <= i <= |s| && OccursAt(s, target, i);
        assert !OccursAt(s, target, 0);
        assert 0 < i && i + |target| <= |s|;
        assert s[1..][i - 1..i - 1 + |target|] == s[i..i + |target|];
        assert OccursAt(s[1..], target, i - 1);
      }
    }
  }

  /** Without an occurrence of the target the string is returned unchanged. */
  lemma {:induction false} ReplaceAbsent(s: string, target: string, replacement: string)
    requires |target| > 0
    requires !Occurs(s, target)
    ensures Replace(s, target, replacement) == s
    decreases |s|
  {
    if |s| >= |target| {
      assert !OccursAt(s, target, 0);
      forall i | OccursAt(s[1..], target, i)
        ensures false
      {
        assert s[1..][i..i + |target|] == s[i + 1..i + 1 + |target|];
        assert OccursAt(s, target, i + 1);
      }
      ReplaceAbsent(s[1..], target, replacement);
    }
  }

  /**
   * Replacement works occurrence by occurrence: when the first occurrence of the
   * target starts right after `a`, that occurrence is replaced and the scan goes on
   * in what follows it, so every later occurrence is replaced as well.
   */
  lemma {:induction false} ReplaceSplit(a: string, target: string, b: string, replacement: string)
    requires |target| > 0
    requires !Occurs(a + target[..|target| - 1], target)
    ensures Replace(a + target + b, target, replacement) == a + replacement + Replace(b, target, replacement)
    decreases |a|
  {
    var s := a + target + b;
    if |a| == 0 {
      assert s == target + b;
      assert s[..|target|] == target && s[|target|..] == b;
    } else {
      var t := a + target[..|target| - 1];
      NoEarlyMatch(a, target, b);
      ReplaceSkipsFirst(s, target, replacement);
      NoOccurrenceInTail(t, target);
      assert t[1..] == a[1..] + target[..|target| - 1];
      assert s[1..] == a[1..] + target + b;
      ReplaceSplit(a[1..], target, b, replacement);
      assert a == [a[0]] + a[1..];
    }
  }

  /** Where the string does not start with the target, its first character is kept. */
  lemma ReplaceSkipsFirst(s: string, target: string, replacement: string)
    requires 0 < |target| <= |s| && s[..|target|] != target
    ensures Replace(s, target, replacement) == [s[0]] + Replace(s[1..], target, replacement)
  {
  }

  /** With no occurrence in `a + target[..|target| - 1]`, `a + target + b` cannot start with the target. */
  lemma NoEarlyMatch(a: string, target: string, b: string)
    requires 0 < |a| && 0 < |target|
    requires !Occurs(a + target[..|target| - 1], target)
    ensures (a + target + b)[..|target|] != target
  {
    var s := a + target + b;
    var t := a + target[..|target| - 1];
    var n := |target|;
    forall k | 0 <= k < n
      ensures s[k] == t[k]
    {
      if k < |a| {
        assert s[k] == a[k] && t[k] == a[k];
      } else {
        assert s[k] == target[k - |a|] && t[k] == target[k - |a|];
      }
    }
    assert s[..n] == t[..n];
    assert !OccursAt(t, target, 0);
  }

  /** Dropping the first character cannot create an occurrence. */
  lemma NoOccurrenceInTail(t: string, target: string)
    requires |t| > 0 && !Occurs(t, target)
    ensures !Occurs(t[1..], target)
  {
    forall i | OccursAt(t[1..], target, i)
      ensures false
    {
      assert t[1..][i..i + |target|] == t[i + 1..i + 1 + |target|];
      assert OccursAt(t, target, i + 1);
    }
  }

  /** The output library name of a jar (both versions of the action). */
  function LibraryName(fileName: string): (r: string)
    ensures |r| >= |fileName|
  {
    ReplaceGrows(fileName, ".jar", "-sources.jar");
    Replace(fileName, ".jar", "-sources.jar")
  }

  /** The name is kept exactly when it has no `.jar` in it. */
  lemma LibraryNameUnchangedIff(fileName: string)
    ensures LibraryName(fileName) == fileName <==> !Occurs(fileName, ".jar")
  {
    if Occurs(fileName, ".jar") {
      ReplaceGrows(fileName, ".jar", "-sources.jar");
    } else {
      ReplaceAbsent(fileName, ".jar", "-sources.jar");
    }
  }

  /**
   * Every `.jar` is renamed, not only the first: with no earlier `.jar`, the first one
   * becomes `-sources.jar` and the rest of the name is renamed in the same way
   * (`a.jar.jar` gives `a-sources.jar-sources.jar`).
   */
  lemma LibraryNameSplit(a: string, b: string)
    requires !Occurs(a + ".ja", ".jar")
    ensures LibraryName(a + ".jar" + b) == a + "-sources.jar" + LibraryName(b)
  {
    assert ".jar"[..3] == ".ja";
    ReplaceSplit(a, ".jar", b, "-sources.jar");
  }

  /** A plain `base.jar` becomes `base-sources.jar`. */
  lemma LibraryNameOfJar(base: string)
    requires !Occurs(base, ".jar")
    ensures LibraryName(base + ".jar") == base + "-sources.jar"
  {
    NoJarAcrossEnd(base);
    LibraryNameSplit(base, "");
    assert base + ".jar" + "" == base + ".jar";
    assert LibraryName("") == "";
  }

  /** Every `.jar` in `base + ".ja"` would end in an `r` of `base`, so it lies inside `base`. */
  lemma NoJarAcrossEnd(base: string)
    requires !Occurs(base, ".jar")
    ensures !Occurs(base + ".ja", ".jar")
  {
    var t := base + ".ja";
    forall i | OccursAt(t, ".jar", i)
      ensures false
    {
      assert t[i + 3] == ".jar"[3] == 'r';
      assert i + 3 < |base|;
      assert t[i..i + 4] == base[i..i + 4];
      assert OccursAt(base, ".jar", i);
    }
  }
}

=== FILE: results.dfy ===
/** Failure-carrying values shared by the modules of this project. */
module Results {

  /** A value that may be absent, as a Java reference that may be null. */
  datatype Option<+T> = None | Some(value: T)

  /** The outcome of an operation that either produces a value or raises an error. */
  datatype Result<+T, +E> = Success(value: T) | Failure(error: E)
}

=== FILE: traversal.dfy ===
/**
 * The current action's `processor`: `apply` on the jar root, the head/tail
 * recursion `process`, and the pre-order plan it is proved to follow.
 */
module Traversal {
  import opened Results
  import opened Vfs
  import opened Zip
  import opened FileNames
  import opened Units
  import opened ArchiveWriter

  /**
   * The plan for one node under `prefix`: a non-empty directory contributes its own
   * entry and then the plan of its children under its path; any other node (a file
   * or an empty directory) goes through the class filter.
   */
  function NodeSteps(prefix: string, n: Node): seq<Step>
    decreases n
  {
    if IsNonEmptyDirectory(n) then
      var path := prefix + n.name + "/";
      [MkDir(path)] + SiblingSteps(path, n.children)
    else LeafSteps(prefix, n)
  }

  /** The plans of siblings, one after the other, all under the parent's prefix. */
  function SiblingSteps(prefix: string, ns: seq<Node>): seq<Step>
    decreases ns
  {
    if |ns| == 0 then [] else NodeSteps(prefix, ns[0]) + SiblingSteps(prefix, ns[1..])
  }

  /** The whole plan of a run: the root's children under the empty prefix. */
  function PreOrder(root: Node): seq<Step>
  {
    SiblingSteps("", Children(root))
  }

  /**
   * `process(relativePath, head, tail, writtenPaths)`. A non-empty directory writes
   * its entry and recurses into its children with the new path held in a local, so
   * the tail call on the siblings still uses the parent's `prefix`.
   */
  function Process(prefix: string, head: Node, tail: seq<Node>, backend: Backend, j: Job): (r: Job)
    requires Valid(j)
    ensures Valid(r)
    ensures r == Replay(j, NodeSteps(prefix, head) + SiblingSteps(prefix, tail), backend)
    decreases Weight(head) + WeightAll(tail)
  {
    var afterHead :=
      if IsNonEmptyDirectory(head) then
        var path := prefix + head.name + "/";
        var c := head.children;
        assert Weight(head) == 1 + WeightAll(c) == 1 + Weight(c[0]) + WeightAll(c[1..]);
        var inner := Process(path, c[0], c[1..], backend, AddDirectoryEntry(j, path));
        ProcessDirectory(prefix, head, backend, j);
        inner
      else if IsClassUnit(head.name) then
        DecompileAndSave(j, prefix + SourceFileName(head.name), head, backend)
      else j;
    assert afterHead == Replay(j, NodeSteps(prefix, head), backend);
    if |tail| > 0 then
      var r := Process(prefix, tail[0], tail[1..], backend, afterHead);
      ReplayAppend(j, NodeSteps(prefix, head), SiblingSteps(prefix, tail), backend);
      r
    else
      assert NodeSteps(prefix, head) + SiblingSteps(prefix, tail) == NodeSteps(prefix, head);
      afterHead
  }

  /** A non-empty directory's plan replays as its entry followed by its children's plan. */
  lemma ProcessDirectory(prefix: string, head: Node, backend: Backend, j: Job)
    requires Valid(j) && IsNonEmptyDirectory(head)
    ensures var path := prefix + head.name + "/";
            Replay(j, NodeSteps(prefix, head), backend)
            == Replay(AddDirectoryEntry(j, path), NodeSteps(path, head.children[0]) + SiblingSteps(path, head.children[1..]), backend)
  {
    var path := prefix + head.name + "/";
    var plan := NodeSteps(prefix, head);
    assert plan[0] == MkDir(path);
    assert plan[1..] == SiblingSteps(path, head.children);
  }

  datatype RunError = JarFileIsEmpty

  /** What `apply` returns (the library's name and the failed class names) and what it wrote. */
  datatype JobResult = JobResult(libraryName: string, failed: set<string>, entries: seq<Entry>)

  /**
   * `apply(root)`: an empty jar is refused before anything is written; otherwise the
   * children are processed under the empty prefix with one fresh written-path set.
   */
  function Apply(root: Node, backend: Backend): (r: Result<JobResult, RunError>)
    ensures r.Failure? <==> |Children(root)| == 0
    ensures r.Failure? ==> r.error == JarFileIsEmpty
    ensures r.Success? ==> r.value.libraryName == root.name
    ensures r.Success? ==> Distinct(r.value.entries)
    ensures r.Success? ==> r.value.entries == KeepFirst(Produced(PreOrder(root), backend), {})
    ensures r.Success? ==> r.value.failed == FailedNames(PreOrder(root), backend)
  {
    var children := Children(root);
    if |children| == 0 then Failure(JarFileIsEmpty)
    else
      var j := Process("", children[0], children[1..], backend, Fresh());
      assert PreOrder(root) == NodeSteps("", children[0]) + SiblingSteps("", children[1..]);
      Success(JobResult(root.name, j.failed, j.entries))
  }

  /** Every step planned for a node lies under the prefix it was given. */
  lemma {:induction false} NodeStepsUnderPrefix(prefix: string, n: Node)
    ensures forall s :: s in NodeSteps(prefix, n) ==> prefix <= s.path
    decreases n
  {
    if IsNonEmptyDirectory(n) {
      var path := prefix + n.name + "/";
      assert prefix <= path;
      SiblingStepsUnderPrefix(path, n.children);
      forall s | s in NodeSteps(prefix, n)
        ensures prefix <= s.path
      {
        if s != MkDir(path) {
          assert s in SiblingSteps(path, n.children);
          assert path <= s.path;
          assert s.path[..|prefix|] == path[..|prefix|];
        }
      }
    }
  }

  /** Siblings are all planned under their parent's prefix. */
  lemma {:induction false} SiblingStepsUnderPrefix(prefix: string, ns: seq<Node>)
    ensures forall s :: s in SiblingSteps(prefix, ns) ==> prefix <= s.path
    decreases ns
  {
    if |ns| > 0 {
      NodeStepsUnderPrefix(prefix, ns[0]);
      SiblingStepsUnderPrefix(prefix, ns[1..]);
    }
  }

  /** The plan of a run of siblings splits wherever the run is split. */
  lemma {:induction false} SiblingStepsAppend(prefix: string, a: seq<Node>, b: seq<Node>)
    ensures SiblingSteps(prefix, a + b) == SiblingSteps(prefix, a) + SiblingSteps(prefix, b)
    decreases |a|
  {
    if |a| == 0 {
      assert a + b == b;
    } else {
      assert (a + b)[0] == a[0] && (a + b)[1..] == a[1..] + b;
      SiblingStepsAppend(prefix, a[1..], b);
    }
  }

  /**
   * Every sibling is planned under the parent's own prefix, whatever comes before it:
   * the plan of the run is the plan of the siblings before it, then its own plan
   * under `prefix`, then the plan of those after it. In particular every non-empty
   * directory among the siblings gets the entry `prefix + name + "/"`.
   */
  lemma SiblingsShareParentPrefix(prefix: string, ns: seq<Node>, i: int)
    requires 0 <= i < |ns|
    ensures SiblingSteps(prefix, ns)
            == SiblingSteps(prefix, ns[..i]) + NodeSteps(prefix, ns[i]) + SiblingSteps(prefix, ns[i + 1..])
    ensures IsNonEmptyDirectory(ns[i]) ==> MkDir(prefix + ns[i].name + "/") in SiblingSteps(prefix, ns)
  {
    assert ns == ns[..i] + ([ns[i]] + ns[i + 1..]);
    SiblingStepsAppend(prefix, ns[..i], [ns[i]] + ns[i + 1..]);
    assert ([ns[i]] + ns[i + 1..])[1..] == ns[i + 1..];
    var before := SiblingSteps(prefix, ns[..i]);
    var own := NodeSteps(prefix, ns[i]);
    if IsNonEmptyDirectory(ns[i]) {
      assert own[0] == MkDir(prefix + ns[i].name + "/");
      assert SiblingSteps(prefix, ns)[|before|] == own[0];
    }
  }

  /**
   * A non-empty directory's entry `prefix + name + "/"` comes before everything
   * planned for its descendants, and all of those lie under that path.
   */
  lemma DirectoryPrecedesDescendants(prefix: string, n: Node)
    requires IsNonEmptyDirectory(n)
    ensures var steps := NodeSteps(prefix, n);
            && steps[0] == MkDir(prefix + n.name + "/")
            && forall k :: 1 <= k < |steps| ==> prefix + n.name + "/" < steps[k].path
  {
    var path := prefix + n.name + "/";
    var steps := NodeSteps(prefix, n);
    SiblingStepsUnderPrefix(path, n.children);
    SiblingStepsShape(path, n.children);
    forall k | 1 <= k < |steps|
      ensures path < steps[k].path
    {
      assert steps[k] == SiblingSteps(path, n.children)[k - 1];
      assert steps[k] in SiblingSteps(path, n.children);
    }
  }

  /**
   * Under `prefix`, directory steps are `prefix + ... + "/"` of a non-empty
   * directory and class steps end in `.java` and concern a class unit; both are
   * strictly longer than the prefix.
   */
  lemma {:induction false} NodeStepsShape(prefix: string, n: Node)
    ensures forall s :: s in NodeSteps(prefix, n) ==>
              |s.path| > |prefix|
              && (s.MkDir? ==> s.path[|s.path| - 1] == '/')
              && (s.Decompile? ==> IsClassUnit(s.unit.name) && |s.path| >= 5 && s.path[|s.path| - 5..] == ".java")
    decreases n
  {
    if IsNonEmptyDirectory(n) {
      var path := prefix + n.name + "/";
      SiblingStepsShape(path, n.children);
    } else if IsClassUnit(n.name) {
      var p := prefix + NameWithoutExtension(n.name) + ".java";
      assert p[|p| - 5..] == ".java";
    }
  }

  lemma {:induction false} SiblingStepsShape(prefix: string, ns: seq<Node>)
    ensures forall s :: s in SiblingSteps(prefix, ns) ==>
              |s.path| > |prefix|
              && (s.MkDir? ==> s.path[|s.path| - 1] == '/')
              && (s.Decompile? ==> IsClassUnit(s.unit.name) && |s.path| >= 5 && s.path[|s.path| - 5..] == ".java")
    decreases ns
  {
    if |ns| > 0 {
      NodeStepsShape(prefix, ns[0]);
      SiblingStepsShape(prefix, ns[1..]);
    }
  }

  /** An empty directory gets no entry; it is only seen by the class filter, like a file. */
  lemma EmptyDirectoryHasNoEntry(prefix: string, name: string)
    ensures forall s :: s in NodeSteps(prefix, Directory(name, [])) ==> s.Decompile?
    ensures |NodeSteps(prefix, Directory(name, []))| == if IsClassUnit(name) then 1 else 0
  {
  }

  /** A name with `$` (a nested or anonymous class) never reaches the decompiler on its own. */
  lemma NestedClassSkipped(prefix: string, n: Node)
    requires '$' in n.name && !IsNonEmptyDirectory(n)
    ensures NodeSteps(prefix, n) == []
  {
  }

  /**
   * Failure containment: a run over a non-empty jar always completes, whatever the
   * backend does, and the number of entries never exceeds the plan.
   */
  lemma FailureContained(root: Node, backend: Backend)
    requires |Children(root)| > 0
    ensures Apply(root, backend).Success?
    ensures |Apply(root, backend).value.entries| <= |PreOrder(root)|
  {
    var plan := PreOrder(root);
    ProducedAtMostPlan(plan, backend);
  }

  lemma {:induction false} ProducedAtMostPlan(steps: seq<Step>, backend: Backend)
    ensures |Produced(steps, backend)| <= |steps|
    decreases |steps|
  {
    if |steps| > 0 {
      ProducedAtMostPlan(steps[1..], backend);
    }
  }

  /**
   * The failed set names exactly the class units of the plan that the backend
   * rejects: a name is reported if and only if some such unit carries it.
   */
  lemma {:induction false} FailedNamesExact(steps: seq<Step>, backend: Backend, name: string)
    ensures name in FailedNames(steps, backend) <==>
              exists i :: 0 <= i < |steps| && steps[i].Decompile?
                          && backend(steps[i].unit).CannotDecompile? && steps[i].unit.name == name
    decreases |steps|
  {
    if |steps| > 0 {
      FailedNamesExact(steps[1..], backend, name);
      if exists i :: 0 <= i < |steps[1..]| && steps[1..][i].Decompile?
                     && backend(steps[1..][i].unit).CannotDecompile? && steps[1..][i].unit.name == name {
        var i :| 0 <= i < |steps[1..]| && steps[1..][i].Decompile?
                 && backend(steps[1..][i].unit).CannotDecompile? && steps[1..][i].unit.name == name;
        assert steps[i + 1] == steps[1..][i];
      }
      if exists i :: 0 <= i < |steps| && steps[i].Decompile?
                     && backend(steps[i].unit).CannotDecompile? && steps[i].unit.name == name {
        var i :| 0 <= i < |steps| && steps[i].Decompile?
                 && backend(steps[i].unit).CannotDecompile? && steps[i].unit.name == name;
        if i > 0 {
          assert steps[1..][i - 1] == steps[i];
        }
      }
    }
  }
}

=== FILE: units.dfy ===
/**
 * What both versions of the traversal share: the decompiler backend seen as an
 * uninterpreted function, the steps a traversal plans (a directory entry or a
 * class to decompile), the entries those steps produce, and the de-duplication
 * that keeps the first entry of every path.
 */
module Units {
  import opened Vfs
  import opened Zip
  import opened FileNames

  /** IdeaDecompiler.getText: the source text, or a CannotDecompileException. */
  datatype Decompiled = Text(text: string) | CannotDecompile

  /** The decompiler backend, an arbitrary function of the class file. */
  type Backend = Node -> Decompiled

  /** One unit of work the traversal hands to the writer or the decompiler. */
  datatype Step = MkDir(path: string) | Decompile(path: string, unit: Node)

  /** The step a node that is not descended into contributes under `prefix`, if any. */
  function LeafSteps(prefix: string, n: Node): (r: seq<Step>)
    ensures |r| <= 1
    ensures |r| == 1 <==> IsClassUnit(n.name)
    ensures |r| == 1 ==> r[0] == Decompile(prefix + NameWithoutExtension(n.name) + ".java", n)
  {
    if IsClassUnit(n.name) then
      assert prefix + SourceFileName(n.name) == prefix + NameWithoutExtension(n.name) + ".java";
      [Decompile(prefix + SourceFileName(n.name), n)]
    else []
  }

  /** The entries a step produces when it succeeds. */
  function StepEntries(s: Step, backend: Backend): seq<Entry>
  {
    match s
    case MkDir(path) => [DirectoryEntry(path)]
    case Decompile(path, unit) =>
      match backend(unit)
      case Text(text) => [FileEntry(path, text)]
      case CannotDecompile => []
  }

  /** The entries a plan would write if nothing were ever de-duplicated. */
  function Produced(steps: seq<Step>, backend: Backend): seq<Entry>
  {
    if |steps| == 0 then [] else StepEntries(steps[0], backend) + Produced(steps[1..], backend)
  }

  /** The names of the classes in a plan that the backend cannot decompile. */
  function FailedNames(steps: seq<Step>, backend: Backend): set<string>
  {
    if |steps| == 0 then {}
    else
      (if steps[0].Decompile? && backend(steps[0].unit).CannotDecompile? then {steps[0].unit.name} else {})
      + FailedNames(steps[1..], backend)
  }

  /** Every step but a failed decompilation produces exactly one entry. */
  predicate AllDecompile(steps: seq<Step>, backend: Backend)
  {
    forall i :: 0 <= i < |steps| ==> !(steps[i].Decompile? && backend(steps[i].unit).CannotDecompile?)
  }

  lemma AllDecompileCons(steps: seq<Step>, backend: Backend)
    requires |steps| > 0
    ensures AllDecompile(steps, backend) <==>
              !(steps[0].Decompile? && backend(steps[0].unit).CannotDecompile?)
              && AllDecompile(steps[1..], backend)
  {
    if !AllDecompile(steps, backend) {
      var i :| 0 <= i < |steps| && steps[i].Decompile? && backend(steps[i].unit).CannotDecompile?;
      if i > 0 {
        assert steps[1..][i - 1] == steps[i];
      }
    }
    if !AllDecompile(steps[1..], backend) {
      var i :| 0 <= i < |steps[1..]| && steps[1..][i].Decompile? && backend(steps[1..][i].unit).CannotDecompile?;
      assert steps[i + 1] == steps[1..][i];
    }
  }

  lemma {:induction false} ProducedAppend(a: seq<Step>, b: seq<Step>, backend: Backend)
    ensures Produced(a + b, backend) == Produced(a, backend) + Produced(b, backend)
    ensures FailedNames(a + b, backend) == FailedNames(a, backend) + FailedNames(b, backend)
    decreases |a|
  {
    if |a| > 0 {
      assert (a + b)[1..] == a[1..] + b;
      ProducedAppend(a[1..], b, backend);
    } else {
      assert a + b == b;
    }
  }

  /**
   * Every entry a plan produces is one the stream accepts, and it is stored exactly
   * when its content is empty: directories always, sources only when the decompiled
   * text is empty.
   */
  lemma {:induction false} ProducedWellDeclared(steps: seq<Step>, backend: Backend)
    ensures forall k :: 0 <= k < |Produced(steps, backend)| ==>
              WellDeclared(Produced(steps, backend)[k])
              && (Produced(steps, backend)[k].compression == Stored <==> |Produced(steps, backend)[k].text| == 0)
    decreases |steps|
  {
    if |steps| > 0 {
      ProducedWellDeclared(steps[1..], backend);
      var head := StepEntries(steps[0], backend);
      var rest := Produced(steps[1..], backend);
      forall k | 0 <= k < |head + rest|
        ensures WellDeclared((head + rest)[k]) && ((head + rest)[k].compression == Stored <==> |(head + rest)[k].text| == 0)
      {
        if k >= |head| {
          assert (head + rest)[k] == rest[k - |head|];
        }
      }
    }
  }

  /** A plan without failures produces one entry per step and reports no name. */
  lemma {:induction false} ProducedAllDecompile(steps: seq<Step>, backend: Backend)
    ensures AllDecompile(steps, backend) ==>
              |Produced(steps, backend)| == |steps| && FailedNames(steps, backend) == {}
    ensures FailedNames(steps, backend) == {} ==> AllDecompile(steps, backend)
    decreases |steps|
  {
    if |steps| > 0 {
      ProducedAllDecompile(steps[1..], backend);
      if AllDecompile(steps, backend) {
        assert AllDecompile(steps[1..], backend) by {
          forall i | 0 <= i < |steps[1..]|
            ensures !(steps[1..][i].Decompile? && backend(steps[1..][i].unit).CannotDecompile?)
          {
            assert steps[1..][i] == steps[i + 1];
          }
        }
      }
      if FailedNames(steps, backend) == {} {
        forall i | 0 <= i < |steps|
          ensures !(steps[i].Decompile? && backend(steps[i].unit).CannotDecompile?)
        {
          if i > 0 {
            assert steps[i] == steps[1..][i - 1];
          }
        }
      }
    }
  }

  /** `es[i]` is the first entry of `es` with its path, and that path is not in `seen`. */
  ghost predicate FirstAt(es: seq<Entry>, seen: set<string>, i: int)
  {
    0 <= i < |es| && es[i].path !in seen && forall h :: 0 <= h < i ==> es[h].path != es[i].path
  }

  /**
   * `idx` witnesses that `r` is a subsequence of `es` made of first occurrences only:
   * `r[k]` is `es[idx[k]]`, unchanged, and the indices increase.
   */
  ghost predicate PicksFirstAt(es: seq<Entry>, seen: set<string>, r: seq<Entry>, idx: seq<int>)
  {
    |idx| == |r|
    && (forall k :: 0 <= k < |idx| ==> FirstAt(es, seen, idx[k]) && r[k] == es[idx[k]])
    && (forall k :: 0 <= k < |idx| - 1 ==> idx[k] < idx[k + 1])
  }

  ghost predicate PicksFirst(es: seq<Entry>, seen: set<string>, r: seq<Entry>)
  {
    exists idx :: PicksFirstAt(es, seen, r, idx)
  }

  lemma PicksFirstEmpty(seen: set<string>)
    ensures PicksFirst([], seen, [])
  {
    assert PicksFirstAt([], seen, [], []);
  }

  /** An entry whose path was already seen is dropped; the rest shifts by one. */
  lemma PicksFirstSkip(es: seq<Entry>, seen: set<string>, rest: seq<Entry>)
    requires |es| > 0 && es[0].path in seen
    requires PicksFirst(es[1..], seen, rest)
    ensures PicksFirst(es, seen, rest)
  {
    var idx :| PicksFirstAt(es[1..], seen, rest, idx);
    var shifted := seq(|idx|, k requires 0 <= k < |idx| => idx[k] + 1);
    forall k | 0 <= k < |shifted|
      ensures FirstAt(es, seen, shifted[k]) && rest[k] == es[shifted[k]]
    {
      assert FirstAt(es[1..], seen, idx[k]);
      forall h | 0 <= h < shifted[k]
        ensures es[h].path != es[shifted[k]].path
      {
        if h > 0 {
          assert es[h] == es[1..][h - 1];
        }
      }
    }
    assert PicksFirstAt(es, seen, rest, shifted);
  }

  /** A new path keeps its entry in front; the rest is filtered against it too. */
  lemma PicksFirstKeep(es: seq<Entry>, seen: set<string>, rest: seq<Entry>)
    requires |es| > 0 && es[0].path !in seen
    requires PicksFirst(es[1..], seen + {es[0].path}, rest)
    ensures PicksFirst(es, seen, [es[0]] + rest)
  {
    var idx :| PicksFirstAt(es[1..], seen + {es[0].path}, rest, idx);
    var shifted := [0] + seq(|idx|, k requires 0 <= k < |idx| => idx[k] + 1);
    var r := [es[0]] + rest;
    assert FirstAt(es, seen, 0);
    forall k | 1 <= k < |shifted|
      ensures FirstAt(es, seen, shifted[k]) && r[k] == es[shifted[k]]
    {
      assert FirstAt(es[1..], seen + {es[0].path}, idx[k - 1]);
      forall h | 0 <= h < shifted[k]
        ensures es[h].path != es[shifted[k]].path
      {
        if h > 0 {
          assert es[h] == es[1..][h - 1];
        }
      }
    }
    assert PicksFirstAt(es, seen, r, shifted);
  }

  /**
   * De-duplication by path: keeps each entry whose path is neither in `seen` nor
   * taken by an earlier entry of `es`, in order.
   */
  function KeepFirst(es: seq<Entry>, seen: set<string>): (r: seq<Entry>)
    ensures PicksFirst(es, seen, r)
    ensures Distinct(r)
    ensures Names(r) == Names(es) - seen
    ensures |r| <= |es|
    ensures Distinct(es) && Names(es) !! seen ==> r == es
    decreases |es|
  {
    if |es| == 0 then
      PicksFirstEmpty(seen);
      []
    else
      var rest := KeepFirst(es[1..], seen + {es[0].path});
      assert es == [es[0]] + es[1..];
      NamesAppend([es[0]], es[1..]);
      DistinctAppend([es[0]], es[1..]);
      if es[0].path in seen then
        PicksFirstSkip(es, seen, KeepFirst(es[1..], seen));
        KeepFirst(es[1..], seen)
      else
        NamesAppend([es[0]], rest);
        DistinctAppend([es[0]], rest);
        PicksFirstKeep(es, seen, rest);
        [es[0]] + rest
  }

  lemma {:induction false} KeepFirstAppend(a: seq<Entry>, b: seq<Entry>, seen: set<string>)
    ensures KeepFirst(a + b, seen) == KeepFirst(a, seen) + KeepFirst(b, seen + Names(a))
    decreases |a|
  {
    if |a| == 0 {
      assert a + b == b;
      assert Names(a) == {};
      assert seen + Names(a) == seen;
    } else {
      assert (a + b)[1..] == a[1..] + b;
      assert a == [a[0]] + a[1..];
      NamesAppend([a[0]], a[1..]);
      if a[0].path in seen {
        KeepFirstAppend(a[1..], b, seen);
        assert seen + Names(a[1..]) == seen + Names(a);
      } else {
        KeepFirstAppend(a[1..], b, seen + {a[0].path});
        assert seen + {a[0].path} + Names(a[1..]) == seen + Names(a);
      }
    }
  }
}

=== FILE: vfs.dfy ===
/**
 * The read-only view of a jar's contents that IntelliJ's jar file system hands to
 * the action: a tree of directories and files with ordered children.
 */
module Vfs {

  /** A node of the jar tree; a file carries the bytes the decompiler reads. */
  datatype Node =
    | Directory(name: string, children: seq<Node>)
    | File(name: string, bytes: seq<bv8>)

  /** VirtualFile.getChildren: a file has none. */
  function Children(n: Node): seq<Node>
  {
    if n.Directory? then n.children else []
  }

  /** The condition under which both traversals descend into a node. */
  predicate IsNonEmptyDirectory(n: Node)
  {
    n.Directory? && |n.children| > 0
  }

  /** Number of nodes in a subtree; the measure of the head/tail recursions. */
  function Weight(n: Node): nat
    decreases n
  {
    match n
    case Directory(_, children) => 1 + WeightAll(children)
    case File(_, _) => 1
  }

  /** Number of nodes in a forest of siblings. */
  function WeightAll(ns: seq<Node>): nat
    decreases ns
  {
    if |ns| == 0 then 0 else Weight(ns[0]) + WeightAll(ns[1..])
  }
}

=== FILE: writer.dfy ===
/**
 * The current action's archive writer: the jar output stream together with the
 * `writtenPaths` set shared by one whole run and the `failed` set of class names
 * the decompiler rejected. Both entry kinds are no-ops on a path already written.
 */
module ArchiveWriter {
  import opened Vfs
  import opened Zip
  import opened Units

  /** The state one run threads through the traversal. */
  datatype Job = Job(entries: seq<Entry>, written: set<string>, failed: set<string>)

  /** The written set is exactly the set of entry names, and no name repeats. */
  predicate Valid(j: Job)
  {
    j.written == Names(j.entries) && Distinct(j.entries)
  }

  /** A run starts with an empty stream and empty sets. */
  function Fresh(): (j: Job)
    ensures j.entries == [] && j.written == {} && j.failed == {}
    ensures Valid(j)
  {
    Job([], {}, {})
  }

  /** addDirectoryEntry: a stored zero-length entry, unless the path is already written. */
  function AddDirectoryEntry(j: Job, path: string): (r: Job)
    requires Valid(j)
    ensures Valid(r) && r.failed == j.failed
    ensures path in j.written ==> r == j
    ensures path !in j.written ==>
              r.entries == j.entries + [DirectoryEntry(path)] && r.written == j.written + {path}
    ensures r.entries == j.entries + KeepFirst([DirectoryEntry(path)], j.written)
  {
    if path in j.written then j
    else
      var put := PutNextEntry(j.entries, DirectoryEntry(path));
      j.(entries := put.value, written := j.written + {path})
  }

  /** addFileEntry: the decompiled text under `path`, unless the path is already written. */
  function AddFileEntry(j: Job, path: string, text: string): (r: Job)
    requires Valid(j)
    ensures Valid(r) && r.failed == j.failed
    ensures path in j.written ==> r == j
    ensures path !in j.written ==>
              r.entries == j.entries + [FileEntry(path, text)] && r.written == j.written + {path}
    ensures r.entries == j.entries + KeepFirst([FileEntry(path, text)], j.written)
  {
    if path in j.written then j
    else
      var put := PutNextEntry(j.entries, FileEntry(path, text));
      j.(entries := put.value, written := j.written + {path})
  }

  /**
   * decompileAndSave: the text is written under `path`; a CannotDecompileException
   * records the file's name (not its path) in `failed` and writes nothing.
   */
  function DecompileAndSave(j: Job, path: string, unit: Node, backend: Backend): (r: Job)
    requires Valid(j)
    ensures Valid(r)
    ensures backend(unit).CannotDecompile? ==> r == j.(failed := j.failed + {unit.name})
    ensures backend(unit).Text? ==> r.failed == j.failed && r.written == j.written + {path}
    ensures backend(unit).Text? ==>
              r.entries == j.entries + KeepFirst([FileEntry(path, backend(unit).text)], j.written)
    ensures backend(unit).Text? && path !in j.written ==>
              r.entries == j.entries + [FileEntry(path, backend(unit).text)]
    ensures path in j.written ==> r.entries == j.entries
  {
    match backend(unit)
    case Text(text) => AddFileEntry(j, path, text)
    case CannotDecompile => j.(failed := j.failed + {unit.name})
  }

  /** One planned step against the writer. */
  function Perform(j: Job, s: Step, backend: Backend): (r: Job)
    requires Valid(j)
    ensures Valid(r)
    ensures r.entries == j.entries + KeepFirst(StepEntries(s, backend), j.written)
    ensures r.failed == j.failed + FailedNames([s], backend)
  {
    assert [s][1..] == [];
    match s
    case MkDir(path) => AddDirectoryEntry(j, path)
    case Decompile(path, unit) => DecompileAndSave(j, path, unit, backend)
  }

  /**
   * A plan performed in order. The output is the de-duplicated list of what the
   * plan produces, and `failed` gains exactly the plan's rejected class names.
   */
  function Replay(j: Job, steps: seq<Step>, backend: Backend): (r: Job)
    requires Valid(j)
    ensures Valid(r)
    ensures r.entries == j.entries + KeepFirst(Produced(steps, backend), j.written)
    ensures r.failed == j.failed + FailedNames(steps, backend)
    decreases |steps|
  {
    if |steps| == 0 then j
    else
      var next := Perform(j, steps[0], backend);
      var r := Replay(next, steps[1..], backend);
      assert Produced(steps, backend) == StepEntries(steps[0], backend) + Produced(steps[1..], backend);
      WrittenAfterStep(j, next, StepEntries(steps[0], backend));
      ReplayEntriesStep(j.entries, j.written, next.entries, r.entries,
                        StepEntries(steps[0], backend), Produced(steps[1..], backend));
      assert [steps[0]][1..] == [];
      r
  }

  /** After a step the written set has grown by exactly the names the step produced. */
  lemma WrittenAfterStep(j: Job, next: Job, first: seq<Entry>)
    requires Valid(j) && Valid(next)
    requires next.entries == j.entries + KeepFirst(first, j.written)
    ensures next.written == j.written + Names(first)
  {
    NamesAppend(j.entries, KeepFirst(first, j.written));
  }

  /**
   * Associativity of concatenation, stated over plain sequences: used instead of an
   * inline assertion, which would expose KeepFirst's contract to the solver.
   */
  lemma ConcatAssociates(a: seq<Entry>, b: seq<Entry>, c: seq<Entry>)
    ensures (a + b) + c == a + (b + c)
  {
  }

  /** The inductive step of Replay's contract on entries: one step, then the rest. */
  lemma ReplayEntriesStep(before: seq<Entry>, w: set<string>, mid: seq<Entry>, after: seq<Entry>,
                          first: seq<Entry>, rest: seq<Entry>)
    requires mid == before + KeepFirst(first, w)
    requires after == mid + KeepFirst(rest, w + Names(first))
    ensures after == before + KeepFirst(first + rest, w)
  {
    KeepFirstAppend(first, rest, w);
    ConcatAssociates(before, KeepFirst(first, w), KeepFirst(rest, w + Names(first)));
  }

  lemma {:induction false} ReplayAppend(j: Job, a: seq<Step>, b: seq<Step>, backend: Backend)
    requires Valid(j)
    ensures Replay(j, a + b, backend) == Replay(Replay(j, a, backend), b, backend)
    decreases |a|
  {
    if |a| == 0 {
      assert a + b == b;
    } else {
      assert (a + b)[1..] == a[1..] + b;
      ReplayAppend(Perform(j, a[0], backend), a[1..], b, backend);
    }
  }
}

=== FILE: zip.dfy ===
/**
 * The part of java.util.zip.ZipOutputStream the action relies on: the sequence of
 * entries written so far, each entry's compression method, declared size and crc,
 * and the stream's refusal of a second entry with a name already written
 * (putNextEntry raises a ZipException "duplicate entry"). The byte layout, DEFLATE
 * and the crc computation are not modelled: size and crc are declared values.
 */
module Zip {
  import opened Results

  /** Compression methods (section 4.4.5 of PKWARE's APPNOTE.TXT: 0 stored, 8 deflated). */
  datatype Method = Stored | Deflated
  {
    function Code(): nat
    {
      if Stored? then 0 else 8
    }
  }

  /**
   * One archive entry. `size` and `crc` are None when the entry leaves them for the
   * stream to compute (a fresh ZipEntry reports -1 for both).
   */
  datatype Entry = Entry(path: string, compression: Method, size: Option<nat>, crc: Option<nat>, text: string)

  datatype ZipError = DuplicateEntry(path: string)

  /** A zero-length directory entry, stored with size 0 and crc 0. */
  function DirectoryEntry(path: string): (e: Entry)
    ensures e.path == path && e.compression == Stored && |e.text| == 0 && WellDeclared(e)
    ensures e == FileEntry(path, "")
  {
    Entry(path, Stored, Some(0), Some(0), [])
  }

  /**
   * A decompiled source entry: an empty text is stored with size 0 and crc 0, any
   * other text is left to the stream's default method, deflate.
   */
  function FileEntry(path: string, text: string): (e: Entry)
    ensures e.path == path && e.text == text
    ensures e.compression == Stored <==> |text| == 0
    ensures e.size.Some? <==> |text| == 0
    ensures e.compression.Code() == 0 ==> e.size == Some(0) && e.crc == Some(0)
  {
    if |text| == 0 then Entry(path, Stored, Some(0), Some(0), text)
    else Entry(path, Deflated, None, None, text)
  }

  /**
   * What the stream accepts without an "invalid entry size" or "invalid entry crc"
   * error: a stored entry declares size 0 and crc 0, so its content must be empty;
   * a deflated entry leaves both for the stream to compute.
   */
  predicate WellDeclared(e: Entry)
  {
    (e.compression == Stored ==> e.size == Some(0) && e.crc == Some(0) && |e.text| == 0)
    && (e.compression == Deflated ==> e.size.None? && e.crc.None?)
  }

  /** The names the stream has seen. */
  function Names(entries: seq<Entry>): set<string>
  {
    set e | e in entries :: e.path
  }

  /** No two entries share a name. */
  predicate Distinct(entries: seq<Entry>)
  {
    forall i, j :: 0 <= i < j < |entries| ==> entries[i].path != entries[j].path
  }

  lemma NamesAppend(a: seq<Entry>, b: seq<Entry>)
    ensures Names(a + b) == Names(a) + Names(b)
  {
    forall p | p in Names(a + b)
      ensures p in Names(a) + Names(b)
    {
      var e :| e in a + b && e.path == p;
      if e in a {
        assert p in Names(a);
      } else {
        assert p in Names(b);
      }
    }
    forall p | p in Names(a) + Names(b)
      ensures p in Names(a + b)
    {
      if p in Names(a) {
        var e :| e in a && e.path == p;
        assert e in a + b;
      } else {
        var e :| e in b && e.path == p;
        assert e in a + b;
      }
    }
  }

  /** Distinctness of a concatenation: both halves distinct and no name shared. */
  lemma DistinctAppend(a: seq<Entry>, b: seq<Entry>)
    ensures Distinct(a + b) <==> Distinct(a) && Distinct(b) && Names(a) !! Names(b)
  {
    var ab := a + b;
    if Distinct(ab) {
      forall i, j | 0 <= i < j < |b|
        ensures b[i].path != b[j].path
      {
        assert ab[|a| + i] == b[i] && ab[|a| + j] == b[j];
      }
      forall i, j | 0 <= i < |a| && 0 <= j < |b|
        ensures a[i].path != b[j].path
      {
        assert ab[i] == a[i] && ab[|a| + j] == b[j];
      }
      forall p | p in Names(a)
        ensures p !in Names(b)
      {
        var x :| x in a && x.path == p;
        var i :| 0 <= i < |a| && a[i] == x;
        forall y | y in b
          ensures y.path != p
        {
          var j :| 0 <= j < |b| && b[j] == y;
          assert a[i].path != b[j].path;
        }
      }
      assert Distinct(a) by {
        forall i, j | 0 <= i < j < |a|
          ensures a[i].path != a[j].path
        {
          assert ab[i] == a[i] && ab[j] == a[j];
        }
      }
    }
    if Distinct(a) && Distinct(b) && Names(a) !! Names(b) {
      forall i, j | 0 <= i < j < |ab|
        ensures ab[i].path != ab[j].path
      {
        if j < |a| {
          assert ab[i] == a[i] && ab[j] == a[j];
        } else if i >= |a| {
          assert ab[i] == b[i - |a|] && ab[j] == b[j - |a|];
        } else {
          assert ab[i] == a[i] && ab[j] == b[j - |a|];
          assert a[i].path in Names(a) && b[j - |a|].path in Names(b);
        }
      }
    }
  }

  /** ZipOutputStream.putNextEntry followed by closeEntry. */
  function PutNextEntry(entries: seq<Entry>, e: Entry): (r: Result<seq<Entry>, ZipError>)
    ensures r.Failure? <==> e.path in Names(entries)
    ensures r.Failure? ==> r.error == DuplicateEntry(e.path)
    ensures r.Success? ==> r.value == entries + [e] && Names(r.value) == Names(entries) + {e.path}
    ensures r.Success? ==> (Distinct(r.value) <==> Distinct(entries))
  {
    if e.path in Names(entries) then Failure(DuplicateEntry(e.path))
    else
      NamesAppend(entries, [e]);
      DistinctAppend(entries, [e]);
      Success(entries + [e])
  }
}
